=== FILE: README.md ===
# LexiFlow dictionary core, modelled in Dafny

LexiFlow is a single-page dictionary. A user types a word or phrase (English or
Chinese). A generative model answers with an LDOCE-style entry. The entry is
shown with every word of its text clickable for a follow-up lookup, and its
definitions grouped by part of speech. A back stack returns to earlier entries.
A search history (newest first, at most 100 words, no case-insensitive
duplicates) can be filtered and cleared.

This project models the logic behind that screen as pure functions over
immutable datatypes, and proves what the code promises:

- `Types`: the records exchanged with the model (`DictionaryEntry`,
  `WordDefinition`, `SearchHistoryItem`, ...). Optional fields are `Option`.
- `Text`: ECMAScript white space (`\s`), `trim`, ASCII `toLowerCase`,
  `includes` with its substring characterisation, and `length` counted in
  UTF-16 code units.
- `Seqs`: `Array.filter` with its membership, order and multiplicity
  properties, and the subsequence relation.
- `History`: the history update of a successful lookup.
- `LookupService`: the adapter's guards in front of the model. These are the
  Chinese-input classifier, the prompt choice, the empty-response error, the
  short-query shortcut and parse fallback of suggestions, and the audio payload
  extraction. The model, `JSON.parse` and the speech model are function
  parameters.
- `Controller`: `handleSearch`, `goBack`, `clearHistory`, `playPronunciation`,
  the view switch and the back button of `App.tsx`, as transitions on one
  state record.
- `ControllerVariant`: the second copy of the controller in `app.tsx`. It is
  proved equal to the first on lookups. Its pronunciation differs.
- `ClickableText`: the split of a text on white-space runs, the cleaning of
  each part, and the resulting plain and link spans.
- `DefinitionGroups`: the `reduce` that groups definitions by lower-cased part
  of speech.
- `HistoryView`: the history filter and the choice of what the screen shows.
- `SearchBar`: the query, suggestion list and keyboard highlight as an event
  machine.

Inputs the program takes from its surroundings are parameters:

- `Date.now()` is `now`.
- The remote model is `model` and `JSON.parse` is `parse`.
- `fetchWordDetails` as seen by the controller is `lookup`.
- Whether audio decoding succeeds is `playable`.
- Whether the platform speech synthesis works is `speechAvailable`.
- The `isLoading` the suggestion timer reads is a parameter. The effect
  (components/SearchBar.tsx:27-40) is re-created only when `query` changes, so
  its timer sees the `isLoading` prop of the render in which `query` last
  changed. That value may be stale 300 ms later. The parameter is that
  captured value, not the live one.

## Model

| member | source | states |
|---|---|---|
| Text.IsSpace | components/WordDisplay.tsx:16 | no ensures: the characters of `\s`, the WhiteSpace and LineTerminator code points of ECMAScript; TrimStart, TrimEnd and Split are stated over it |
| Text.Lower | HistoryView.tsx:16 | no ensures: `toLowerCase` character by character, moving only `A`..`Z`; LowerIdempotent and FilterIgnoresCase are stated over it |
| Text.Includes | HistoryView.tsx:16 | no ensures: `includes` as a search from each start position; IncludesIffOccurs equates it with the substring relation in both directions |
| Text.TrimStart | components/WordDisplay.tsx:21 | the result is a suffix of the input; everything removed is white space; it does not start with white space |
| Text.TrimEnd | components/WordDisplay.tsx:21 | the result is a prefix of the input; everything removed is white space; it does not end with white space |
| Text.Trim | components/SearchBar.tsx:45-46 | neither end of the result is white space, and a trimmed input is returned unchanged |
| Text.TrimKeepsCharacters | components/SearchBar.tsx:45-46 | the result keeps every non-space character of the input and adds none |
| Text.TrimIsInfix | components/SearchBar.tsx:45-46 | the result is an infix of the input with only white space removed before and after it |
| Text.JsLength | services/geminiService.ts:91 | `length` counts UTF-16 code units: at least the number of characters and at most twice it |
| Text.JsLengthSplit | components/SearchBar.tsx:29 | the code-unit length of a string is the sum of the lengths on the two sides of any cut |
| Text.JsLengthOfBmp | components/SearchBar.tsx:86 | inside the Basic Multilingual Plane the code-unit length is the number of characters |
| Text.JsLengthOfChar | components/SearchBar.tsx:86 | one character has length one below U+10000 and two from U+10000 up; with JsLengthSplit this fixes the length of every string |
| Text.TrimShortens | components/SearchBar.tsx:29 | trimming never increases the code-unit length |
| Text.TrimIdempotent | components/SearchBar.tsx:45-46 | trimming twice is trimming once |
| Text.LowerIdempotent | HistoryView.tsx:16 | lower-casing twice is lower-casing once |
| Text.IncludesIffOccurs | HistoryView.tsx:16 | `includes`, computed position by position, holds exactly when the term occurs at some index |
| Text.IncludesEmpty | HistoryView.tsx:16 | every string includes the empty string |
| Seqs.Filter | App.tsx:73 | the result is an order-preserving subsequence of the input holding exactly the elements that pass |
| Seqs.FilterCounts | HistoryView.tsx:15-17 | each passing element keeps its multiplicity; each failing element is gone |
| Seqs.FilterKeepsAll | HistoryView.tsx:15-17 | when every element passes, the filter is the identity |
| Seqs.SubseqDistinct | App.tsx:73 | a subsequence of a list with distinct keys has distinct keys |
| History.Merge | App.tsx:72-73 | the new item is first; no other item has the same word up to case; the others are a subsequence of the old history; the length is between 1 and 100; with fewer than 100 items, nothing else is dropped; a repeated word does not grow the history; after the new item come the newest old items with a different word, in order, as many as fit in 100 |
| History.DuplicateShortens | App.tsx:73 | removing a word that is present makes the history strictly shorter |
| History.MergeWellFormed | App.tsx:72-74 | a history of at most 100 items with case-insensitively distinct words stays so after a lookup |
| History.RepeatLookupMovesToFront | App.tsx:73 | in a well-formed history, looking up a word already present puts it first and leaves the length exactly as it was |
| LookupService.IsChinese | services/geminiService.ts:63 | the input is Chinese exactly when some character lies in U+4E00..U+9FA5 |
| LookupService.PromptFor | services/geminiService.ts:65-74 | the translation instruction is chosen exactly for Chinese input, and both instructions carry the input |
| LookupService.FetchWordDetails | services/geminiService.ts:62-88 | a thrown call, an absent or empty text, and an unparsable text are errors; otherwise the parsed entry is returned |
| LookupService.FetchSuggestions | services/geminiService.ts:90-110 | a query shorter than 2 UTF-16 code units gets no suggestions without a call; a thrown call propagates; an absent, empty or unparsable text gives none; a non-empty answer is the parsed text |
| LookupService.ExtractAudio | services/geminiService.ts:129 | the payload is present exactly when every link of the optional chain is, and is then the first part's inline data |
| LookupService.FetchAudio | services/geminiService.ts:115-130 | a thrown call propagates; otherwise the payload is present exactly when the response carries it, and is then the first part's inline data |
| Controller.Initial | App.tsx:40-55 | on mount nothing is shown, the back stack is empty, neither the lookup nor the audio is loading, the stored blob is kept as given, and the history is the stored one or empty |
| Controller.Search | App.tsx:57-84 | a failed lookup only sets the error and clears loading; a successful one shows the entry, pushes the previous entry on a forward lookup (or resets the stack when none was shown), keeps the stack on a back action, and shows and stores exactly the merged history of `History.Merge` |
| Controller.BackStackAfter | App.tsx:64-68 | no ensures: the back-stack branch of a successful lookup; the back-stack clauses of Search and BackStackBranchesAgree state it |
| Controller.GoBack | App.tsx:86-92 | with an empty stack nothing changes; otherwise the top entry is shown and popped and nothing else changes |
| Controller.ClearHistory | App.tsx:94-97 | the history is empty, the stored copy is removed, and nothing else changes |
| Controller.SetView | App.tsx:146-152 | only the active view changes |
| Controller.BackButton | App.tsx:161-222 | a back button is on screen exactly on the search tab, with an entry shown, no lookup running and a non-empty stack; it names the top entry's word |
| Controller.ForwardLookupOffersBack | App.tsx:64-66 | after a successful forward lookup from an entry, the back button names that entry |
| Controller.PlayPronunciation | App.tsx:99-134 | without an entry nothing happens; otherwise the synthesized payload plays exactly when the call succeeded with a non-empty, playable payload; else the platform voice speaks the word in en-US when speech synthesis works, and nothing is spoken when it fails; the audio flag ends cleared |
| Controller.InitialConsistent | App.tsx:50-55 | a well-formed stored history gives a consistent start state |
| Controller.SearchKeepsConsistent | App.tsx:57-84 | a lookup keeps the history well formed and equal to the stored copy |
| Controller.OtherHandlersKeepConsistent | App.tsx:86-134 | going back, clearing, switching views and pronouncing keep the history well formed and equal to the stored copy, or both cleared |
| Controller.SearchThenBack | App.tsx:64-92 | a successful forward lookup followed by going back restores the entry and the back stack |
| Controller.FailedSearchThenBack | App.tsx:78-92 | after a failed lookup, going back does what it would have done before |
| ControllerVariant.BackStackAfterVariant | app.tsx:32-39 | no ensures: the second copy's three-way back-stack branch; BackStackBranchesAgree equates it with Controller.BackStackAfter |
| ControllerVariant.SearchVariant | app.tsx:25-55 | no ensures: the second copy's `handleSearch`; SearchVariantAgrees equates it with Controller.Search, whose contract then applies |
| ControllerVariant.BackStackBranchesAgree | app.tsx:32-39 | the second copy's three-way back-stack branch computes the same stack as the first copy's |
| ControllerVariant.SearchVariantAgrees | app.tsx:25-55 | the two copies' `handleSearch` are the same transition on every input |
| ControllerVariant.PlayPronunciationVariant | app.tsx:70-82 | the platform voice speaks the word in en-GB when speech synthesis works, and the audio flag ends cleared |
| ControllerVariant.FallbackAccentsDiffer | app.tsx:75 | when synthesis fails, the two copies speak the same word in different locales |
| ClickableText.RunLength | components/WordDisplay.tsx:16 | the length of the maximal leading run of white space, or of non-space |
| ClickableText.Split | components/WordDisplay.tsx:16 | the parts concatenate back to the text, alternate between non-space runs and maximal white-space runs, and start with an empty part exactly when the text is empty or starts with white space |
| ClickableText.Clean | components/WordDisplay.tsx:21 | the cleaned word holds no punctuation, keeps every non-space, non-punctuation character of the part, and is trimmed |
| ClickableText.CleanIsInfix | components/WordDisplay.tsx:21 | the reported word is the part without punctuation, with only white space cut from its two ends, so characters keep their order and number |
| ClickableText.IsWhitespace | components/WordDisplay.tsx:20 | no ensures: `/^\s+$/`, a non-empty run of white space; Render's link clause is stated over it |
| ClickableText.Render | components/WordDisplay.tsx:20-34 | a part is shown as it is; it is a link exactly when it is not pure white space and cleans to a non-empty word, which the link reports |
| ClickableText.JoinedMatchesConcat | components/WordDisplay.tsx:16-35 | spans showing the parts, in order, show the whole text |
| ClickableText.RenderedParts | components/WordDisplay.tsx:20-28 | every link of a split reports a non-empty word without punctuation or white space |
| ClickableText.Tokenize | components/WordDisplay.tsx:14-38 | without a handler the text is one plain span; the spans always show exactly the text; white space is never a link; every link reports its part's cleaned word |
| DefinitionGroups.FirstIndex | components/WordDisplay.tsx:43-48 | the position of the first definition with a key, when one exists |
| DefinitionGroups.FirstIndexIsFirst | components/WordDisplay.tsx:43-48 | no definition before that position has the key |
| DefinitionGroups.IndexOf | components/WordDisplay.tsx:45 | the position of the group for a key, or past the end when there is none |
| DefinitionGroups.GroupDefinitions | components/WordDisplay.tsx:43-48 | keys are distinct; each group is exactly the definitions with its key in original order and is non-empty; every definition's key has a group; groups are ordered by first occurrence; all definitions are shown once |
| DefinitionGroups.AddDefinition | components/WordDisplay.tsx:44-47 | no ensures: one `reduce` step, appending to the key's group or opening a new one; AddDefinitionGroups and AddDefinitionFlatten state what it preserves and adds |
| DefinitionGroups.AddDefinitionGroups | components/WordDisplay.tsx:44-47 | one `reduce` step turns a grouping of some definitions into a grouping of them plus the next |
| DefinitionGroups.AddDefinitionFlatten | components/WordDisplay.tsx:46 | one `reduce` step adds exactly the next definition to what is shown |
| DefinitionGroups.ExactlyOneGroup | components/WordDisplay.tsx:43-48 | a definition lies in exactly the group of its own key |
| HistoryView.FilterHistory | HistoryView.tsx:15-17 | the filtered list is a subsequence of the history holding exactly the items whose lower-cased word contains the lower-cased term, each as many times as in the history |
| HistoryView.EmptyTermKeepsAll | HistoryView.tsx:16 | the empty term keeps the whole history |
| HistoryView.FilterIgnoresCase | HistoryView.tsx:16 | terms with the same lower-case form filter alike |
| HistoryView.OwnWordIsFound | HistoryView.tsx:15-17 | typing a stored word in any case finds that item |
| HistoryView.ShowHistory | HistoryView.tsx:42-68 | the filter box and the non-empty panel appear exactly for a non-empty history; "no matches" appears exactly when no item matches; otherwise the matches are listed |
| HistoryView.EmptyTermNeverNoMatches | HistoryView.tsx:57-70 | with an empty term, a non-empty history is listed in full |
| SearchBar.Chosen | components/SearchBar.tsx:44 | without a highlight the query is chosen; with one, a suggestion from the list; Submit states that it is the highlighted one |
| SearchBar.Submit | components/SearchBar.tsx:42-50 | it fails exactly when the highlight is past the list; otherwise it searches for the trimmed suggestion at the highlight, or the trimmed query without one, exactly when that is not blank, then hides the list and clears the highlight; a blank choice changes nothing |
| SearchBar.SubmittedWordIsTrimmed | components/SearchBar.tsx:45-48 | a submit searches only for a non-blank trimmed word and leaves nothing highlighted |
| SearchBar.KeyDown | components/SearchBar.tsx:52-64 | ArrowDown sets the highlight to the next index, capped at the last suggestion; ArrowUp sets it to the previous index, floored at none; neither changes anything else; Enter submits only with a highlight; Escape only hides the list; other keys change nothing |
| SearchBar.Typed | components/SearchBar.tsx:81-84 | typing sets the query and clears the highlight |
| SearchBar.Focused | components/SearchBar.tsx:86 | focus shows the list exactly when the query has at least two UTF-16 code units, and changes nothing else |
| SearchBar.Picked | components/SearchBar.tsx:114-118 | clicking a suggestion makes it the query, searches for it untrimmed, and hides the list |
| SearchBar.ClearAsWritten | components/SearchBar.tsx:91 | the clear button as written empties query and list and keeps the highlight, which stays in range only if nothing was highlighted |
| SearchBar.ClearThenEnterFails | components/SearchBar.tsx:91 | clearing with a highlighted suggestion and pressing Enter reads past the list |
| SearchBar.Clear | components/SearchBar.tsx:91 | the clear button with the highlight reset keeps the highlight in range |
| SearchBar.DebounceFiredAsWritten | components/SearchBar.tsx:27-40 | a query whose trimmed form has at least two UTF-16 code units, with no lookup running, fetches suggestions; otherwise the list is emptied and hidden; the highlight is untouched |
| SearchBar.PickThenSubmitFails | components/SearchBar.tsx:29-36 | highlighting and clicking a suggestion during a lookup empties the list under the highlight, and the next submit fails |
| SearchBar.DebounceFired | components/SearchBar.tsx:27-40 | the same effect with the highlight cleared whenever the list is replaced keeps the highlight in range |
| SearchBar.DebounceQueryLongEnough | components/SearchBar.tsx:29 | a fired request always passes the service's own length guard |
| SearchBar.Handle | components/SearchBar.tsx:69-118 | no ensures: which handler each event of the form, input and suggestion buttons reaches, with the corrected clear and effect; HandleKeepsIndexInRange and RunNeverFaults are stated over it |
| SearchBar.HandleKeepsIndexInRange | components/SearchBar.tsx:52-58 | from a state whose highlight is in range, every event succeeds and keeps it in range |
| SearchBar.RunNeverFaults | components/SearchBar.tsx:42-64 | any run of events from such a state never reads past the list |
| SearchBar.StartRunNeverFaults | components/SearchBar.tsx:11-14 | no run of events from the freshly mounted search box faults |

## Left out

- Rendering (JSX, CSS, icons, the Chinese-translation toggle), `window.scrollTo`, date formatting, and the click-outside listener are left out. Only whether a step scrolls to the top is kept.
- Asynchrony is left out. Each handler is one atomic step, so these are not modelled:
  - the 300 ms debounce and its cancellation
  - stale React closures over `currentWord` and `history` in App.tsx, and over
    the `isLoading` prop in the suggestion timer of components/SearchBar.tsx
    (the captured value is the parameter `isLoading`)
  - races between overlapping lookups, where the last response wins
- The prompt wording, the response schema and the model names are left out. They are text sent to the remote model, which is a parameter.
- Decoding base64 PCM into an audio buffer (App.tsx:10-36) is floating-point signal processing. Whether it succeeds is the parameter `playable`.
- `toLowerCase` is modelled for ASCII letters only. The source follows the Unicode case mappings. Non-ASCII words are compared as written.
- `Object.entries` lists integer-like keys first. The model orders groups by first occurrence. Keys such as `constructor` or `__proto__`, which an object literal treats specially, are not modelled.
- The stored history is read with `JSON.parse` at start-up without a guard. The model takes the parsed value or `None`, so a malformed blob is not modelled.
- Pressing Enter in the search box also submits the form natively. `KeyDown` models the key handler alone; the form's submission is the separate event `FormSubmitted`.
- Controller.Search: the entry parser is a parameter returning a
  `DictionaryEntry` or nothing. services/geminiService.ts:87 returns whatever
  `JSON.parse` yields, without checking its shape. A parsable answer without
  `word` makes App.tsx:72-73 throw after `setBackStack` and `setCurrentWord`
  (App.tsx:64-70) were already queued. The error is then shown with the pushed
  stack and the malformed entry. The model does not have this partial update.
- Controller.Search: a throwing `localStorage.setItem` (App.tsx:75) also leaves
  the stack, the entry and the history set while the error is shown. The model
  treats storage as always succeeding.
- LookupService.FetchSuggestions: the suggestion parser is a parameter that
  yields a list of strings, as the response schema at
  services/geminiService.ts:98-101 asks the model for. services/geminiService.ts:106
  returns whatever `JSON.parse` yields. An answer such as `[null]` would make a
  later submit call `trim` on `null`, and `null` would make the list's
  `length` throw during rendering. SearchBar.HandleKeepsIndexInRange and
  SearchBar.RunNeverFaults hold only for answers that obey the schema.
- Controller.PlayPronunciation: when speech synthesis fails in the fallback
  (App.tsx:128-130), the error escapes the handler as a rejected promise. The
  model records only that nothing is spoken and that the loading flag ends
  cleared.
- `goBack` and `clearHistory` in app.tsx (57-68) are the same code as in App.tsx. They are modelled once by `Controller.GoBack` and `Controller.ClearHistory`.
- The history screen's "Clear All", "Back to Search" and item buttons call `Controller.ClearHistory`, `Controller.SetView` and `Controller.Search`. They are not modelled again.

## Findings

| source | as written | input that shows it | evidently intended | confidence | as-written member | corrected member |
|---|---|---|---|---|---|---|
| components/SearchBar.tsx:91 | the clear button empties the suggestions but keeps `activeIndex` | query "ru", suggestions ["run", "rush"], highlight 0; press clear (the button then disappears, taking the focus with it), click back into the box and press Enter, or press GO: `suggestions[0]` is undefined and `trim` throws | clearing also resets `activeIndex` to -1 | medium, not executed | SearchBar.ClearAsWritten | SearchBar.Clear |
| components/SearchBar.tsx:29-36 | the debounced effect replaces the suggestions but keeps `activeIndex` | suggestions ["run", "rush", "rule"], highlight 2; click "rule", and the effect fires while the lookup runs: the list is emptied with the highlight still 2, and the next submit throws | replacing the list also resets `activeIndex` to -1 | low, not executed | SearchBar.DebounceFiredAsWritten | SearchBar.DebounceFired |

Both counterexamples are proved by `SearchBar.ClearThenEnterFails` and
`SearchBar.PickThenSubmitFails`. The event machine `SearchBar.Handle` uses the
corrected members, and `SearchBar.RunNeverFaults` proves that its highlight
never leaves the list.

=== FILE: clickable_text.dfy ===
/** `ClickableText`: the text of an entry cut into white-space runs and
    words, where each word that still has letters left once punctuation is
    stripped becomes a link that looks that word up. */
module ClickableText {
  import opened Text
  import opened Seqs

  /** The characters the cleaning step deletes. */
  const Punctuation: set<char> := {
    '.', ',', '/', '#', '!', '$', '%', '^', '&', '*', ';', ':', '{', '}', '=',
    '-', '_', '`', '~', '(', ')', '[', ']', '"', '\'', '?'
  }

  function NotPunctuation(): char -> bool {
    c => c !in Punctuation
  }

  /** A rendered piece of text: shown as is, or clickable and reporting `word`. */
  datatype Span = Plain(text: string) | Link(text: string, word: string)

  function Concat(parts: seq<string>): string {
    if parts == [] then [] else parts[0] + Concat(parts[1..])
  }

  function Joined(spans: seq<Span>): string {
    if spans == [] then [] else spans[0].text + Joined(spans[1..])
  }

  /** The length of the longest prefix of `s` made of white space (when
      `space`) or of anything else (when not). */
  function RunLength(s: string, space: bool): (n: nat)
    ensures n <= |s|
    ensures forall i :: 0 <= i < n ==> IsSpace(s[i]) == space
    ensures n < |s| ==> IsSpace(s[n]) != space
  {
    if s == [] || IsSpace(s[0]) != space then 0
    else
      var m := RunLength(s[1..], space);
      assert forall i :: 1 <= i < m + 1 ==> s[i] == s[1..][i - 1];
      1 + m
  }

  /** The shape of a split: an odd number of parts, non-space runs at even
      positions and non-empty white-space runs at odd positions, and no
      empty part except possibly the first and the last. */
  predicate Alternating(parts: seq<string>) {
    && |parts| % 2 == 1
    && (forall i :: 0 <= i < |parts| && i % 2 == 0 ==> NoSpace(parts[i]))
    && (forall i :: 0 <= i < |parts| && i % 2 == 1 ==> parts[i] != [] && AllSpace(parts[i]))
    && (forall i :: 0 < i < |parts| - 1 ==> parts[i] != [])
  }

  lemma AlternatingCons(word: string, gap: string, tail: seq<string>)
    requires NoSpace(word) && gap != [] && AllSpace(gap)
    requires Alternating(tail) && (tail[0] != [] || |tail| == 1)
    ensures Alternating([word, gap] + tail)
  {
    var parts := [word, gap] + tail;
    forall i | 0 <= i < |parts| && i % 2 == 0
      ensures NoSpace(parts[i])
    {
      if i >= 2 {
        assert parts[i] == tail[i - 2];
      }
    }
    forall i | 0 <= i < |parts| && i % 2 == 1
      ensures parts[i] != [] && AllSpace(parts[i])
    {
      if i >= 2 {
        assert parts[i] == tail[i - 2];
      }
    }
    forall i | 0 < i < |parts| - 1
      ensures parts[i] != []
    {
      if i >= 2 {
        assert parts[i] == tail[i - 2];
      }
    }
  }

  lemma ConcatCons(word: string, gap: string, tail: seq<string>)
    ensures Concat([word, gap] + tail) == word + gap + Concat(tail)
  {
    var parts := [word, gap] + tail;
    assert parts[1..] == [gap] + tail && ([gap] + tail)[1..] == tail;
  }

  /** `text.split(/(\s+)/)`: a separator with a capturing group keeps the
      separators, so the parts alternate between runs of non-space and
      maximal runs of white space, and they concatenate back to the text. */
  function Split(s: string): (parts: seq<string>)
    ensures Alternating(parts)
    ensures Concat(parts) == s
    ensures parts[0] == [] <==> (s == [] || IsSpace(s[0]))
    ensures s == [] ==> parts == [[]]
    decreases |s|
  {
    var k := RunLength(s, false);
    if k == |s| then
      assert Concat([s]) == s + Concat([]);
      assert s == s[..k];
      [s]
    else
      var m := RunLength(s[k..], true);
      WordBeforeGap(s, k);
      GapNotEmpty(s, k, m);
      GapIsSpace(s, k, m);
      GapIsMaximal(s, k, m);
      ThreePieces(s, k, k + m);
      var word, gap, rest := s[..k], s[k..k + m], s[k + m..];
      var tail := Split(rest);
      AlternatingCons(word, gap, tail);
      ConcatCons(word, gap, tail);
      [word, gap] + tail
  }

  /** The text before the first white space has none, and is empty exactly
      when the text starts with white space. */
  lemma WordBeforeGap(s: string, k: nat)
    requires k == RunLength(s, false) < |s|
    ensures NoSpace(s[..k])
    ensures s[..k] == [] <==> IsSpace(s[0])
  {
  }

  lemma ThreePieces<T>(s: seq<T>, a: nat, b: nat)
    requires a <= b <= |s|
    ensures s == s[..a] + s[a..b] + s[b..]
  {
  }

  lemma GapNotEmpty(s: string, k: nat, m: nat)
    requires k == RunLength(s, false) < |s|
    requires m == RunLength(s[k..], true)
    ensures 1 <= m && k + m <= |s|
  {
    assert s[k..][0] == s[k];
  }

  lemma GapIsMaximal(s: string, k: nat, m: nat)
    requires k == RunLength(s, false) < |s|
    requires m == RunLength(s[k..], true)
    requires k + m <= |s|
    ensures s[k + m..] == [] || !IsSpace(s[k + m..][0])
  {
    if k + m < |s| {
      assert s[k + m..][0] == s[k..][m];
    }
  }

  lemma GapIsSpace(s: string, k: nat, m: nat)
    requires k <= |s| && m <= |s| - k
    requires forall i :: 0 <= i < m ==> IsSpace(s[k..][i])
    ensures AllSpace(s[k..k + m])
  {
    var gap, t := s[k..k + m], s[k..];
    forall i | 0 <= i < |gap|
      ensures IsSpace(gap[i])
    {
      assert gap[i] == t[i];
    }
  }

  /** The word a part reports: punctuation deleted, white space trimmed. */
  function Clean(part: string): (w: string)
    ensures forall c :: c in w ==> c in part && c !in Punctuation
    ensures forall c :: c in part && c !in Punctuation && !IsSpace(c) ==> c in w
    ensures IsTrimmed(w)
    ensures NoSpace(part) ==> NoSpace(w)
  {
    var kept := Filter(part, NotPunctuation());
    var w := Trim(kept);
    TrimKeepsCharacters(kept);
    SpaceFreeChars(part, w);
    w
  }

  /** The reported word is the part with its punctuation deleted and then
      white space cut from both ends: it keeps the remaining characters in
      order and in number. */
  lemma CleanIsInfix(part: string)
    ensures SpaceBounded(Clean(part), Filter(part, NotPunctuation()))
  {
    TrimIsInfix(Filter(part, NotPunctuation()));
  }

  /** Characters drawn from a space-free string form a space-free string. */
  lemma SpaceFreeChars(part: string, w: string)
    requires forall c :: c in w ==> c in part
    ensures NoSpace(part) ==> NoSpace(w)
  {
    if NoSpace(part) {
      forall i | 0 <= i < |w|
        ensures !IsSpace(w[i])
      {
        assert w[i] in part;
        var j :| 0 <= j < |part| && part[j] == w[i];
      }
    }
  }

  /** The test `/^\s+$/`: a non-empty run of white space only. */
  predicate IsWhitespace(part: string) {
    |part| > 0 && AllSpace(part)
  }

  /** One part of the split: white space stays plain text, as does a part
      with nothing left after cleaning; anything else is a link that reports
      the cleaned word. */
  function Render(part: string): (span: Span)
    ensures span.text == part
    ensures span.Link? <==> !IsWhitespace(part) && Clean(part) != []
    ensures span.Link? ==> span.word == Clean(part)
  {
    if IsWhitespace(part) then Plain(part)
    else
      var w := Clean(part);
      if w == [] then Plain(part) else Link(part, w)
  }

  lemma {:induction false} JoinedMatchesConcat(spans: seq<Span>, parts: seq<string>)
    requires |spans| == |parts|
    requires forall i :: 0 <= i < |spans| ==> spans[i].text == parts[i]
    ensures Joined(spans) == Concat(parts)
  {
    if spans != [] {
      JoinedMatchesConcat(spans[1..], parts[1..]);
    }
  }

  /** A link word is a non-empty word free of punctuation and white space. */
  predicate LookupWord(w: string) {
    w != [] && forall c :: c in w ==> c !in Punctuation && !IsSpace(c)
  }

  lemma RenderedParts(parts: seq<string>, spans: seq<Span>)
    requires Alternating(parts)
    requires |spans| == |parts| && forall i :: 0 <= i < |parts| ==> spans[i] == Render(parts[i])
    ensures forall i :: 0 <= i < |spans| && spans[i].Link? ==> LookupWord(spans[i].word)
  {
    forall i | 0 <= i < |spans| && spans[i].Link?
      ensures LookupWord(spans[i].word)
    {
      RenderedPart(parts, i);
    }
  }

  /** A part of a split that is shown as a link reports a lookup word. */
  lemma RenderedPart(parts: seq<string>, i: nat)
    requires Alternating(parts) && i < |parts| && Render(parts[i]).Link?
    ensures LookupWord(Render(parts[i]).word)
  {
    if i % 2 == 0 {
      LinkOfWordRun(parts[i]);
    }
  }

  lemma LinkOfWordRun(part: string)
    requires NoSpace(part) && Render(part).Link?
    ensures LookupWord(Render(part).word)
  {
    var w := Clean(part);
    assert NoSpace(w);
  }

  /** The spans `ClickableText` renders for `text`; `hasHandler` says whether
      an `onWordClick` callback was given. */
  function Tokenize(text: string, hasHandler: bool): (spans: seq<Span>)
    ensures !hasHandler ==> spans == [Plain(text)]
    ensures Joined(spans) == text
    ensures hasHandler ==> |spans| == |Split(text)|
    ensures hasHandler ==> forall i :: 0 <= i < |spans| ==> spans[i] == Render(Split(text)[i])
    ensures forall i :: 0 <= i < |spans| && IsWhitespace(spans[i].text) ==> spans[i].Plain?
    ensures forall i :: 0 <= i < |spans| && spans[i].Link? ==>
              LookupWord(spans[i].word) && spans[i].word == Clean(spans[i].text)
  {
    if !hasHandler then
      assert Joined([Plain(text)]) == text + Joined([]);
      [Plain(text)]
    else
      var parts := Split(text);
      var spans := seq(|parts|, i requires 0 <= i < |parts| => Render(parts[i]));
      JoinedMatchesConcat(spans, parts);
      RenderedParts(parts, spans);
      spans
  }
}

=== FILE: controller.dfy ===
/** The top-level navigation controller: the entry on screen, the back
    stack of entries seen before it, the search history and the flags the
    screen shows. Every handler is one atomic step from state to state. */
module Controller {
  import opened Wrappers
  import opened Types
  import opened Seqs
  import opened History
  import opened LookupService

  datatype View = SearchTab | HistoryTab

  /** `stored` is the persisted history blob: `None` once it is removed. */
  datatype State = State(
    current: Option<DictionaryEntry>,
    backStack: seq<DictionaryEntry>,
    isLoading: bool,
    error: Option<string>,
    history: seq<SearchHistoryItem>,
    isAudioLoading: bool,
    view: View,
    stored: Option<seq<SearchHistoryItem>>)

  /** A step's new state, and whether it asks the window to scroll to the top. */
  datatype Step = Step(next: State, scrollToTop: bool)

  const NotFoundMessage: string := "Word not found. Check spelling or try another."

  /** The state after mounting: the history is whatever the stored blob holds. */
  function Initial(stored: Option<seq<SearchHistoryItem>>): (s: State)
    ensures s.current.None? && s.backStack == [] && s.error.None? && s.view == SearchTab
    ensures !s.isLoading && !s.isAudioLoading && s.stored == stored
    ensures s.history == (if stored.Some? then stored.value else [])
  {
    State(None, [], false, None, if stored.Some? then stored.value else [], false, SearchTab, stored)
  }

  /** The back-stack update of a successful lookup. */
  function BackStackAfter(isBackAction: bool, current: Option<DictionaryEntry>,
                          stack: seq<DictionaryEntry>): seq<DictionaryEntry>
  {
    if !isBackAction && current.Some? then stack + [current.value]
    else if !isBackAction then []
    else stack
  }

  /** `handleSearch(word, isBackAction)`, with `lookup` standing for
      `fetchWordDetails` and `now` for `Date.now()`. */
  function Search(s: State, word: string, isBackAction: bool, now: int,
                  lookup: string -> Result<DictionaryEntry, LookupError>): (r: Step)
    ensures !r.next.isLoading && r.next.view == SearchTab
    ensures r.next.isAudioLoading == s.isAudioLoading
    ensures lookup(word).Failure? ==>
              && r.next.current == s.current && r.next.backStack == s.backStack
              && r.next.history == s.history && r.next.stored == s.stored
              && r.next.error == Some(NotFoundMessage) && !r.scrollToTop
    ensures lookup(word).Success? ==>
              var e := lookup(word).value;
              && r.next.current == Some(e) && r.next.error.None? && r.scrollToTop
              && |r.next.history| > 0 && r.next.history[0] == SearchHistoryItem(e.word, now)
              && |r.next.history| <= MaxHistory
              && (forall i :: 1 <= i < |r.next.history| ==> Key(r.next.history[i]) != Text.Lower(e.word))
              && IsSubseq(r.next.history[1..], s.history)
              && r.next.stored == Some(r.next.history)
    ensures lookup(word).Success? ==> r.next.history == Merge(s.history, lookup(word).value.word, now)
    ensures lookup(word).Success? && !isBackAction ==>
              r.next.backStack == (if s.current.Some? then s.backStack + [s.current.value] else [])
    ensures lookup(word).Success? && isBackAction ==> r.next.backStack == s.backStack
  {
    match lookup(word)
    case Failure(_) =>
      Step(s.(isLoading := false, error := Some(NotFoundMessage), view := SearchTab), false)
    case Success(e) =>
      var history := Merge(s.history, e.word, now);
      Step(s.(current := Some(e),
              backStack := BackStackAfter(isBackAction, s.current, s.backStack),
              isLoading := false, error := None, view := SearchTab,
              history := history, stored := Some(history)), true)
  }

  /** `goBack`: pops the most recent entry back onto the screen. */
  function GoBack(s: State): (r: Step)
    ensures |s.backStack| == 0 ==> r == Step(s, false)
    ensures |s.backStack| > 0 ==>
              && r.next.current == Some(s.backStack[|s.backStack| - 1])
              && r.next.backStack + [s.backStack[|s.backStack| - 1]] == s.backStack
              && r.next.(current := s.current, backStack := s.backStack) == s
              && r.scrollToTop
  {
    if |s.backStack| == 0 then Step(s, false)
    else
      var n := |s.backStack|;
      assert s.backStack[..n - 1] + [s.backStack[n - 1]] == s.backStack;
      Step(s.(current := Some(s.backStack[n - 1]), backStack := s.backStack[..n - 1]), true)
  }

  /** `clearHistory`: forgets the history and removes the stored blob. */
  function ClearHistory(s: State): (r: State)
    ensures r.history == [] && r.stored.None?
    ensures r.(history := s.history, stored := s.stored) == s
  {
    s.(history := [], stored := None)
  }

  /** The DICT and HIST buttons and the history view's close button. */
  function SetView(s: State, v: View): (r: State)
    ensures r.view == v && r.(view := s.view) == s
  {
    s.(view := v)
  }

  /** The back button on screen: the entry view is drawn only on the search
      tab with an entry and no lookup running, and it offers the button when
      the back stack is not empty, labelled with the word of the entry it
      returns to. */
  function BackButton(s: State): (caption: Option<string>)
    ensures caption.Some? <==> s.view == SearchTab && s.current.Some? && !s.isLoading && |s.backStack| > 0
    ensures caption.Some? ==> caption.value == s.backStack[|s.backStack| - 1].word
  {
    if s.view == SearchTab && s.current.Some? && !s.isLoading && |s.backStack| > 0 then
      Some(s.backStack[|s.backStack| - 1].word)
    else None
  }

  /** After a successful forward lookup from an entry on screen, the back
      button names that entry. */
  lemma ForwardLookupOffersBack(s: State, e: DictionaryEntry, word: string, now: int,
                                lookup: string -> Result<DictionaryEntry, LookupError>)
    requires s.current == Some(e) && lookup(word).Success?
    ensures BackButton(Search(s, word, false, now, lookup).next) == Some(e.word)
  {
  }

  /** What `playPronunciation` makes audible: the synthesized payload, or the
      platform voice speaking a text in a locale. */
  datatype Voice = Synthesized(payload: string) | PlatformVoice(text: string, lang: string)

  datatype Playback = Playback(next: State, voice: Option<Voice>)

  const FallbackLocale: string := "en-US"

  /** `playPronunciation`, with `fetchAudio` the adapter call, `playable`
      whether decoding and starting the payload succeed, and
      `speechAvailable` whether the platform speech synthesis works. Any
      failure falls back to the platform voice, which speaks nothing when
      speech synthesis fails; the loading flag always ends cleared. */
  function PlayPronunciation(s: State, fetchAudio: string -> Result<Option<string>, ServiceError>,
                             playable: bool, speechAvailable: bool): (r: Playback)
    ensures s.current.None? ==> r == Playback(s, None)
    ensures s.current.Some? ==>
              && !r.next.isAudioLoading
              && r.next.(isAudioLoading := s.isAudioLoading) == s
    ensures s.current.Some? ==>
              var word := s.current.value.word;
              var synthesized := playable && fetchAudio(word).Success? && fetchAudio(word).value.Some?
                                 && fetchAudio(word).value.value != [];
              && (synthesized ==> r.voice == Some(Synthesized(fetchAudio(word).value.value)))
              && (!synthesized && speechAvailable ==> r.voice == Some(PlatformVoice(word, FallbackLocale)))
              && (!synthesized && !speechAvailable ==> r.voice.None?)
  {
    if s.current.None? then Playback(s, None)
    else
      var word := s.current.value.word;
      var fallback := if speechAvailable then Some(PlatformVoice(word, FallbackLocale)) else None;
      var voice :=
        match fetchAudio(word)
        case Success(Some(payload)) =>
          if payload != [] && playable then Some(Synthesized(payload)) else fallback
        case _ => fallback;
      Playback(s.(isAudioLoading := false), voice)
  }

  /** The history agrees with the stored blob and is well formed. */
  predicate Consistent(s: State) {
    && WellFormed(s.history)
    && (s.stored == Some(s.history) || (s.stored.None? && s.history == []))
  }

  lemma InitialConsistent(stored: Option<seq<SearchHistoryItem>>)
    requires stored.Some? ==> WellFormed(stored.value)
    ensures Consistent(Initial(stored))
  {
  }

  /** A lookup keeps the history consistent with the stored blob. */
  lemma SearchKeepsConsistent(s: State, word: string, isBackAction: bool, now: int,
                              lookup: string -> Result<DictionaryEntry, LookupError>)
    requires Consistent(s)
    ensures Consistent(Search(s, word, isBackAction, now, lookup).next)
  {
    if lookup(word).Success? {
      MergeWellFormed(s.history, lookup(word).value.word, now);
    }
  }

  /** The other handlers keep the history consistent with the stored blob. */
  lemma OtherHandlersKeepConsistent(s: State, fetchAudio: string -> Result<Option<string>, ServiceError>,
                                    playable: bool, speechAvailable: bool, v: View)
    requires Consistent(s)
    ensures Consistent(GoBack(s).next)
    ensures Consistent(ClearHistory(s))
    ensures Consistent(SetView(s, v))
    ensures Consistent(PlayPronunciation(s, fetchAudio, playable, speechAvailable).next)
  {
  }

  /** A forward lookup followed by going back restores the entry on screen
      and the back stack. */
  lemma SearchThenBack(s: State, e: DictionaryEntry, word: string, now: int,
                       lookup: string -> Result<DictionaryEntry, LookupError>)
    requires s.current == Some(e) && lookup(word).Success?
    ensures var back := GoBack(Search(s, word, false, now, lookup).next).next;
            back.current == Some(e) && back.backStack == s.backStack
  {
  }

  /** A failed lookup followed by going back is going back with the error shown. */
  lemma FailedSearchThenBack(s: State, word: string, isBackAction: bool, now: int,
                             lookup: string -> Result<DictionaryEntry, LookupError>)
    requires lookup(word).Failure?
    ensures var back := GoBack(Search(s, word, isBackAction, now, lookup).next).next;
            back.current == GoBack(s).next.current && back.backStack == GoBack(s).next.backStack
  {
  }
}

=== FILE: controller_variant.dfy ===
/** The second copy of the controller. It spells the back-stack branch of a
    successful lookup differently and pronounces with the platform voice
    only, in British English. Its `goBack` and `clearHistory` are the same
    code as the first copy's and are modelled by `Controller.GoBack` and
    `Controller.ClearHistory`. */
module ControllerVariant {
  import opened Wrappers
  import opened Types
  import opened History
  import opened LookupService
  import opened Controller

  /** The back-stack update as this copy writes it: push on a forward
      lookup with an entry on screen, keep on a back action, clear otherwise. */
  function BackStackAfterVariant(isBackAction: bool, current: Option<DictionaryEntry>,
                                 stack: seq<DictionaryEntry>): seq<DictionaryEntry>
  {
    if !isBackAction && current.Some? then stack + [current.value]
    else if isBackAction then stack
    else []
  }

  /** Both spellings of the branch compute the same stack. */
  lemma BackStackBranchesAgree(isBackAction: bool, current: Option<DictionaryEntry>,
                               stack: seq<DictionaryEntry>)
    ensures BackStackAfterVariant(isBackAction, current, stack)
         == BackStackAfter(isBackAction, current, stack)
  {
  }

  /** `handleSearch` of this copy. */
  function SearchVariant(s: State, word: string, isBackAction: bool, now: int,
                         lookup: string -> Result<DictionaryEntry, LookupError>): Step
  {
    match lookup(word)
    case Failure(_) =>
      Step(s.(isLoading := false, error := Some(NotFoundMessage), view := SearchTab), false)
    case Success(e) =>
      var history := Merge(s.history, e.word, now);
      Step(s.(current := Some(e),
              backStack := BackStackAfterVariant(isBackAction, s.current, s.backStack),
              isLoading := false, error := None, view := SearchTab,
              history := history, stored := Some(history)), true)
  }

  /** The two copies' lookups are the same transition on every input. */
  lemma SearchVariantAgrees(s: State, word: string, isBackAction: bool, now: int,
                            lookup: string -> Result<DictionaryEntry, LookupError>)
    ensures SearchVariant(s, word, isBackAction, now, lookup) == Search(s, word, isBackAction, now, lookup)
  {
    BackStackBranchesAgree(isBackAction, s.current, s.backStack);
  }

  const VariantLocale: string := "en-GB"

  /** `playPronunciation` of this copy: the platform voice speaks the word
      when speech synthesis is available; a failure is only logged. */
  function PlayPronunciationVariant(s: State, speechAvailable: bool): (r: Playback)
    ensures s.current.None? ==> r == Playback(s, None)
    ensures s.current.Some? ==>
              && !r.next.isAudioLoading
              && r.next.(isAudioLoading := s.isAudioLoading) == s
              && (r.voice.Some? <==> speechAvailable)
              && (r.voice.Some? ==> r.voice.value == PlatformVoice(s.current.value.word, VariantLocale))
  {
    if s.current.None? then Playback(s, None)
    else
      Playback(s.(isAudioLoading := false),
               if speechAvailable then Some(PlatformVoice(s.current.value.word, VariantLocale)) else None)
  }

  /** When no synthesized audio arrives, the two copies speak the same word
      in different accents. */
  lemma FallbackAccentsDiffer(s: State, fetchAudio: string -> Result<Option<string>, ServiceError>,
                              playable: bool)
    requires s.current.Some? && fetchAudio(s.current.value.word).Failure?
    ensures PlayPronunciation(s, fetchAudio, playable, true).voice.value.text
         == PlayPronunciationVariant(s, true).voice.value.text
    ensures PlayPronunciation(s, fetchAudio, playable, true).voice.value.lang
         != PlayPronunciationVariant(s, true).voice.value.lang
  {
  }
}

=== FILE: definition_groups.dfy ===
/** The grouping of an entry's definitions by part of speech that the entry
    view renders: one group per lower-cased `pos`, groups in the order their
    part of speech first occurs, definitions in their original order. */
module DefinitionGroups {
  import opened Types
  import opened Text
  import opened Seqs

  datatype Group = Group(pos: string, defs: seq<WordDefinition>)

  /** The key a definition is grouped under. */
  function PosKey(d: WordDefinition): string {
    Lower(d.pos)
  }

  function HasPos(k: string): WordDefinition -> bool {
    d => PosKey(d) == k
  }

  /** The definitions with key `k`, in order: what the group for `k` should hold. */
  function OfPos(defs: seq<WordDefinition>, k: string): seq<WordDefinition> {
    Filter(defs, HasPos(k))
  }

  function Keys(groups: seq<Group>): seq<string> {
    seq(|groups|, i requires 0 <= i < |groups| => groups[i].pos)
  }

  /** All definitions of all groups, group after group. */
  function Flatten(groups: seq<Group>): seq<WordDefinition> {
    if groups == [] then [] else groups[0].defs + Flatten(groups[1..])
  }

  /** The position of the first definition with key `k`, or `|defs|`. */
  function FirstIndex(defs: seq<WordDefinition>, k: string): (n: nat)
    ensures n <= |defs|
    ensures n < |defs| ==> PosKey(defs[n]) == k
  {
    if defs == [] then 0
    else if PosKey(defs[0]) == k then 0
    else 1 + FirstIndex(defs[1..], k)
  }

  /** No definition before `FirstIndex(defs, k)` has key `k`. */
  lemma {:induction false} FirstIndexIsFirst(defs: seq<WordDefinition>, k: string, j: nat)
    requires j < FirstIndex(defs, k)
    ensures PosKey(defs[j]) != k
  {
    if j > 0 {
      FirstIndexIsFirst(defs[1..], k, j - 1);
      assert defs[1..][j - 1] == defs[j];
    }
  }

  /** The lookup `acc[posKey]`: the position of the group for `k`, or `|groups|`. */
  function IndexOf(groups: seq<Group>, k: string): (i: nat)
    ensures i <= |groups|
    ensures i < |groups| ==> groups[i].pos == k
    ensures forall j :: 0 <= j < i ==> groups[j].pos != k
  {
    if groups == [] then 0
    else if groups[0].pos == k then 0
    else
      var m := IndexOf(groups[1..], k);
      assert forall j :: 1 <= j < m + 1 ==> groups[j] == groups[1..][j - 1];
      1 + m
  }

  /** One step of the `reduce`: append `d` to its group, opening the group
      at the end when its key is new. */
  function AddDefinition(groups: seq<Group>, d: WordDefinition): seq<Group> {
    var i := IndexOf(groups, PosKey(d));
    if i < |groups| then groups[i := Group(groups[i].pos, groups[i].defs + [d])]
    else groups + [Group(PosKey(d), [d])]
  }

  predicate KeysDistinct(groups: seq<Group>) {
    forall i, j :: 0 <= i < j < |groups| ==> groups[i].pos != groups[j].pos
  }

  predicate ContentsMatch(groups: seq<Group>, defs: seq<WordDefinition>) {
    forall i :: 0 <= i < |groups| ==> groups[i].defs == OfPos(defs, groups[i].pos) && groups[i].defs != []
  }

  predicate Covers(groups: seq<Group>, defs: seq<WordDefinition>) {
    forall d :: d in defs ==> PosKey(d) in Keys(groups)
  }

  predicate FirstSeenOrder(groups: seq<Group>, defs: seq<WordDefinition>) {
    forall i, j :: 0 <= i < j < |groups| ==> FirstIndex(defs, groups[i].pos) < FirstIndex(defs, groups[j].pos)
  }

  /** `groups` is the grouping of `defs`: keys are distinct, each group holds
      exactly the definitions with its key in their original order and is not
      empty, every definition's key has a group, and groups are ordered by
      the first occurrence of their key. */
  predicate GroupedAs(groups: seq<Group>, defs: seq<WordDefinition>) {
    && KeysDistinct(groups)
    && ContentsMatch(groups, defs)
    && Covers(groups, defs)
    && FirstSeenOrder(groups, defs)
  }

  /** `entry.definitions.reduce(...)` from an empty record. */
  function GroupDefinitions(defs: seq<WordDefinition>): (groups: seq<Group>)
    ensures GroupedAs(groups, defs)
    ensures multiset(Flatten(groups)) == multiset(defs)
    decreases |defs|
  {
    if defs == [] then []
    else
      var init, d := defs[..|defs| - 1], defs[|defs| - 1];
      assert defs == init + [d];
      var groups := GroupDefinitions(init);
      AddDefinitionGroups(groups, init, d);
      AddDefinitionFlatten(groups, d);
      AddDefinition(groups, d)
  }

  lemma {:induction false} FirstIndexAppend(defs: seq<WordDefinition>, d: WordDefinition, k: string)
    ensures FirstIndex(defs, k) < |defs| ==> FirstIndex(defs + [d], k) == FirstIndex(defs, k)
    ensures FirstIndex(defs, k) == |defs| && PosKey(d) == k ==> FirstIndex(defs + [d], k) == |defs|
  {
    if defs == [] {
      assert (defs + [d])[0] == d;
    } else {
      assert (defs + [d])[0] == defs[0];
      if PosKey(defs[0]) != k {
        assert (defs + [d])[1..] == defs[1..] + [d];
        FirstIndexAppend(defs[1..], d, k);
      }
    }
  }

  /** A key of a grouping occurs among the definitions. */
  lemma GroupKeyOccurs(groups: seq<Group>, defs: seq<WordDefinition>, i: nat)
    requires GroupedAs(groups, defs) && i < |groups|
    ensures FirstIndex(defs, groups[i].pos) < |defs|
  {
    var x := groups[i].defs[0];
    assert x in OfPos(defs, groups[i].pos);
    var j :| 0 <= j < |defs| && defs[j] == x;
    if j < FirstIndex(defs, groups[i].pos) {
      FirstIndexIsFirst(defs, groups[i].pos, j);
    }
  }

  /** A key without a group has no definitions. */
  lemma NoGroupNoDefinitions(groups: seq<Group>, defs: seq<WordDefinition>, k: string)
    requires GroupedAs(groups, defs)
    requires forall i :: 0 <= i < |groups| ==> groups[i].pos != k
    ensures OfPos(defs, k) == []
    ensures FirstIndex(defs, k) == |defs|
  {
    forall j | 0 <= j < |defs|
      ensures !HasPos(k)(defs[j])
    {
      assert defs[j] in defs;
      assert PosKey(defs[j]) in Keys(groups);
    }
    FilterKeepsNone(defs, HasPos(k));
  }

  /** One `reduce` step turns a grouping of `defs` into one of `defs + [d]`. */
  lemma AddDefinitionGroups(groups: seq<Group>, defs: seq<WordDefinition>, d: WordDefinition)
    requires GroupedAs(groups, defs)
    ensures GroupedAs(AddDefinition(groups, d), defs + [d])
  {
    OldGroupsAfterAppend(groups, defs, d);
    if IndexOf(groups, PosKey(d)) == |groups| {
      NewGroupAppended(groups, defs, d);
    } else {
      ExistingGroupExtended(groups, defs, d);
    }
  }

  /** What appending `d` does to the contents and first index of old keys. */
  lemma OldGroupsAfterAppend(groups: seq<Group>, defs: seq<WordDefinition>, d: WordDefinition)
    requires GroupedAs(groups, defs)
    ensures forall j :: 0 <= j < |groups| ==>
              && OfPos(defs + [d], groups[j].pos) == OfPos(defs, groups[j].pos) + (if groups[j].pos == PosKey(d) then [d] else [])
              && FirstIndex(defs + [d], groups[j].pos) == FirstIndex(defs, groups[j].pos) < |defs|
  {
    forall j | 0 <= j < |groups|
      ensures OfPos(defs + [d], groups[j].pos) == OfPos(defs, groups[j].pos) + (if groups[j].pos == PosKey(d) then [d] else [])
      ensures FirstIndex(defs + [d], groups[j].pos) == FirstIndex(defs, groups[j].pos) < |defs|
    {
      FilterAppend(defs, d, HasPos(groups[j].pos));
      GroupKeyOccurs(groups, defs, j);
      FirstIndexAppend(defs, d, groups[j].pos);
    }
  }

  lemma NewGroupAppended(groups: seq<Group>, defs: seq<WordDefinition>, d: WordDefinition)
    requires GroupedAs(groups, defs)
    requires IndexOf(groups, PosKey(d)) == |groups|
    requires forall j :: 0 <= j < |groups| ==>
              && OfPos(defs + [d], groups[j].pos) == OfPos(defs, groups[j].pos)
              && FirstIndex(defs + [d], groups[j].pos) == FirstIndex(defs, groups[j].pos) < |defs|
    ensures GroupedAs(AddDefinition(groups, d), defs + [d])
  {
    var k := PosKey(d);
    var r := groups + [Group(k, [d])];
    assert AddDefinition(groups, d) == r;
    NoGroupNoDefinitions(groups, defs, k);
    NewGroupContents(groups, defs, d);
    NewGroupCovers(groups, defs, d);
    FirstIndexAppend(defs, d, k);
    NewGroupDistinct(groups, Group(k, [d]));
    NewGroupOrder(groups, defs, d);
  }

  lemma NewGroupContents(groups: seq<Group>, defs: seq<WordDefinition>, d: WordDefinition)
    requires ContentsMatch(groups, defs)
    requires OfPos(defs, PosKey(d)) == []
    requires forall j :: 0 <= j < |groups| ==> OfPos(defs + [d], groups[j].pos) == OfPos(defs, groups[j].pos)
    ensures ContentsMatch(groups + [Group(PosKey(d), [d])], defs + [d])
  {
    FilterAppend(defs, d, HasPos(PosKey(d)));
    var r := groups + [Group(PosKey(d), [d])];
    forall j | 0 <= j < |r|
      ensures r[j].defs == OfPos(defs + [d], r[j].pos) && r[j].defs != []
    {
      if j < |groups| {
        assert r[j] == groups[j];
      }
    }
  }

  lemma NewGroupCovers(groups: seq<Group>, defs: seq<WordDefinition>, d: WordDefinition)
    requires Covers(groups, defs)
    ensures Covers(groups + [Group(PosKey(d), [d])], defs + [d])
  {
    var r := groups + [Group(PosKey(d), [d])];
    assert Keys(r) == Keys(groups) + [PosKey(d)];
    forall x | x in defs + [d]
      ensures PosKey(x) in Keys(r)
    {
      if x != d {
        assert x in defs;
      }
    }
  }

  lemma NewGroupDistinct(groups: seq<Group>, g: Group)
    requires KeysDistinct(groups)
    requires forall j :: 0 <= j < |groups| ==> groups[j].pos != g.pos
    ensures KeysDistinct(groups + [g])
  {
  }

  lemma NewGroupOrder(groups: seq<Group>, defs: seq<WordDefinition>, d: WordDefinition)
    requires FirstSeenOrder(groups, defs)
    requires FirstIndex(defs + [d], PosKey(d)) == |defs|
    requires forall j :: 0 <= j < |groups| ==>
              FirstIndex(defs + [d], groups[j].pos) == FirstIndex(defs, groups[j].pos) < |defs|
    ensures FirstSeenOrder(groups + [Group(PosKey(d), [d])], defs + [d])
  {
    var r := groups + [Group(PosKey(d), [d])];
    forall i, j | 0 <= i < j < |r|
      ensures FirstIndex(defs + [d], r[i].pos) < FirstIndex(defs + [d], r[j].pos)
    {
      NewGroupOrderPair(groups, defs, d, i, j);
    }
  }

  lemma NewGroupOrderPair(groups: seq<Group>, defs: seq<WordDefinition>, d: WordDefinition, i: nat, j: nat)
    requires FirstSeenOrder(groups, defs)
    requires FirstIndex(defs + [d], PosKey(d)) == |defs|
    requires forall j :: 0 <= j < |groups| ==>
              FirstIndex(defs + [d], groups[j].pos) == FirstIndex(defs, groups[j].pos) < |defs|
    requires i < j <= |groups|
    ensures var r := groups + [Group(PosKey(d), [d])];
            FirstIndex(defs + [d], r[i].pos) < FirstIndex(defs + [d], r[j].pos)
  {
    var r := groups + [Group(PosKey(d), [d])];
    assert r[i] == groups[i];
    if j < |groups| {
      assert r[j] == groups[j];
    } else {
      assert r[j].pos == PosKey(d);
    }
  }

  lemma ExistingGroupExtended(groups: seq<Group>, defs: seq<WordDefinition>, d: WordDefinition)
    requires GroupedAs(groups, defs)
    requires IndexOf(groups, PosKey(d)) < |groups|
    requires forall j :: 0 <= j < |groups| ==>
              OfPos(defs + [d], groups[j].pos) == OfPos(defs, groups[j].pos) + (if groups[j].pos == PosKey(d) then [d] else [])
    requires forall j :: 0 <= j < |groups| ==> FirstIndex(defs + [d], groups[j].pos) == FirstIndex(defs, groups[j].pos)
    ensures GroupedAs(AddDefinition(groups, d), defs + [d])
  {
    var n := IndexOf(groups, PosKey(d));
    var g := Group(groups[n].pos, groups[n].defs + [d]);
    var r := groups[n := g];
    assert AddDefinition(groups, d) == r;
    UpdateKeepsKeys(groups, n, g);
    SameKeysDistinct(groups, r);
    ExistingGroupContents(groups, defs, d, n);
    ExistingGroupCovers(groups, defs, d, n);
    SameKeysOrder(groups, r, defs, defs + [d]);
  }

  lemma UpdateKeepsKeys(groups: seq<Group>, n: nat, g: Group)
    requires n < |groups| && g.pos == groups[n].pos
    ensures |groups[n := g]| == |groups|
    ensures forall j :: 0 <= j < |groups| ==> groups[n := g][j].pos == groups[j].pos
  {
  }

  lemma ExistingGroupCovers(groups: seq<Group>, defs: seq<WordDefinition>, d: WordDefinition, n: nat)
    requires Covers(groups, defs)
    requires n < |groups| && groups[n].pos == PosKey(d)
    ensures Covers(groups[n := Group(groups[n].pos, groups[n].defs + [d])], defs + [d])
  {
    var r := groups[n := Group(groups[n].pos, groups[n].defs + [d])];
    assert Keys(r) == Keys(groups);
    assert PosKey(d) == Keys(groups)[n];
  }

  lemma SameKeysDistinct(groups: seq<Group>, r: seq<Group>)
    requires KeysDistinct(groups)
    requires |r| == |groups|
    requires forall j :: 0 <= j < |r| ==> r[j].pos == groups[j].pos
    ensures KeysDistinct(r)
  {
  }

  /** Keeping every key in place and every key's first index keeps the order. */
  lemma SameKeysOrder(groups: seq<Group>, r: seq<Group>, defs: seq<WordDefinition>, defs': seq<WordDefinition>)
    requires FirstSeenOrder(groups, defs)
    requires |r| == |groups|
    requires forall j :: 0 <= j < |r| ==> r[j].pos == groups[j].pos
    requires forall j :: 0 <= j < |groups| ==> FirstIndex(defs', groups[j].pos) == FirstIndex(defs, groups[j].pos)
    ensures FirstSeenOrder(r, defs')
  {
    forall i, j | 0 <= i < j < |r|
      ensures FirstIndex(defs', r[i].pos) < FirstIndex(defs', r[j].pos)
    {
      assert r[i].pos == groups[i].pos && r[j].pos == groups[j].pos;
    }
  }

  lemma ExistingGroupContents(groups: seq<Group>, defs: seq<WordDefinition>, d: WordDefinition, n: nat)
    requires KeysDistinct(groups) && ContentsMatch(groups, defs)
    requires n < |groups| && groups[n].pos == PosKey(d)
    requires forall j :: 0 <= j < |groups| ==>
              OfPos(defs + [d], groups[j].pos) == OfPos(defs, groups[j].pos) + (if groups[j].pos == PosKey(d) then [d] else [])
    ensures ContentsMatch(groups[n := Group(groups[n].pos, groups[n].defs + [d])], defs + [d])
  {
    var r := groups[n := Group(groups[n].pos, groups[n].defs + [d])];
    forall j | 0 <= j < |r|
      ensures r[j].defs == OfPos(defs + [d], r[j].pos) && r[j].defs != []
    {
      if j != n {
        assert groups[j].pos != PosKey(d);
        assert r[j] == groups[j];
      }
    }
  }

  lemma {:induction false} FlattenAppend(groups: seq<Group>, g: Group)
    ensures Flatten(groups + [g]) == Flatten(groups) + g.defs
  {
    if groups != [] {
      assert (groups + [g])[1..] == groups[1..] + [g];
      FlattenAppend(groups[1..], g);
    }
  }

  lemma {:induction false} FlattenUpdate(groups: seq<Group>, i: nat, g: Group)
    requires i < |groups|
    ensures multiset(Flatten(groups[i := g])) + multiset(groups[i].defs)
         == multiset(Flatten(groups)) + multiset(g.defs)
  {
    var u := groups[i := g];
    if i == 0 {
      assert u[1..] == groups[1..];
      assert Flatten(u) == g.defs + Flatten(groups[1..]);
    } else {
      assert u[1..] == groups[1..][i - 1 := g];
      FlattenUpdate(groups[1..], i - 1, g);
      assert groups[1..][i - 1] == groups[i];
      assert Flatten(u) == groups[0].defs + Flatten(u[1..]);
      assert Flatten(groups) == groups[0].defs + Flatten(groups[1..]);
      assert multiset(Flatten(u)) == multiset(groups[0].defs) + multiset(Flatten(u[1..]));
      assert multiset(Flatten(groups)) == multiset(groups[0].defs) + multiset(Flatten(groups[1..]));
      var lhs := multiset(Flatten(u)) + multiset(groups[i].defs);
      var rhs := multiset(Flatten(groups)) + multiset(g.defs);
      forall x
        ensures lhs[x] == rhs[x]
      {
        assert (multiset(Flatten(u[1..])) + multiset(groups[i].defs))[x]
            == (multiset(Flatten(groups[1..])) + multiset(g.defs))[x];
      }
      assert lhs == rhs;
    }
  }

  lemma MultisetCancel<T>(a: multiset<T>, b: multiset<T>, c: multiset<T>)
    requires a + c == b + c
    ensures a == b
  {
    forall x
      ensures a[x] == b[x]
    {
      assert (a + c)[x] == (b + c)[x];
    }
  }

  /** One `reduce` step adds `d` to the definitions shown, and nothing else. */
  lemma AddDefinitionFlatten(groups: seq<Group>, d: WordDefinition)
    ensures multiset(Flatten(AddDefinition(groups, d))) == multiset(Flatten(groups)) + multiset{d}
  {
    var i := IndexOf(groups, PosKey(d));
    if i < |groups| {
      var g := Group(groups[i].pos, groups[i].defs + [d]);
      FlattenUpdate(groups, i, g);
      assert AddDefinition(groups, d) == groups[i := g];
      assert multiset(g.defs) == multiset(groups[i].defs) + multiset{d};
      MultisetCancel(multiset(Flatten(groups[i := g])), multiset(Flatten(groups)) + multiset{d},
                     multiset(groups[i].defs));
    } else {
      FlattenAppend(groups, Group(PosKey(d), [d]));
    }
  }

  /** Every definition lands in exactly one group: the one for its key. */
  lemma {:induction false} ExactlyOneGroup(defs: seq<WordDefinition>, d: WordDefinition)
    requires d in defs
    ensures var groups := GroupDefinitions(defs);
            forall i :: 0 <= i < |groups| ==> (d in groups[i].defs <==> groups[i].pos == PosKey(d))
  {
    var groups := GroupDefinitions(defs);
    forall i | 0 <= i < |groups|
      ensures d in groups[i].defs <==> groups[i].pos == PosKey(d)
    {
      assert groups[i].defs == OfPos(defs, groups[i].pos);
    }
  }
}

=== FILE: history.dfy ===
/** The search history: newest first, at most 100 items, and no two items
    whose words differ only in letter case. */
module History {
  import opened Types
  import opened Text
  import opened Seqs

  const MaxHistory: nat := 100

  /** Items are compared by their lower-cased word. */
  function Key(item: SearchHistoryItem): string {
    Lower(item.word)
  }

  /** The history invariant that every successful lookup maintains. */
  predicate WellFormed(history: seq<SearchHistoryItem>) {
    |history| <= MaxHistory && DistinctBy(history, Key)
  }

  /** Keeps the items whose word is not `word` up to letter case. */
  function DifferentWord(word: string): SearchHistoryItem -> bool {
    item => Key(item) != Lower(word)
  }

  /** The history after a successful lookup of `word` at time `now`: the new
      item in front, every case-insensitive duplicate removed, cut to 100. */
  function Merge(history: seq<SearchHistoryItem>, word: string, now: int): (r: seq<SearchHistoryItem>)
    ensures 1 <= |r| <= MaxHistory
    ensures r[0] == SearchHistoryItem(word, now)
    ensures forall i :: 1 <= i < |r| ==> Key(r[i]) != Lower(word)
    ensures IsSubseq(r[1..], history)
    ensures |history| < MaxHistory ==>
              forall x :: x in history && Key(x) != Lower(word) ==> x in r
    ensures (exists x :: x in history && Key(x) == Lower(word)) ==> |r| <= |history|
    ensures var kept := Filter(history, DifferentWord(word));
            && |r| == (if |kept| < MaxHistory then |kept| + 1 else MaxHistory)
            && r[1..] == kept[..|r| - 1]
  {
    var kept := Filter(history, DifferentWord(word));
    var full := [SearchHistoryItem(word, now)] + kept;
    var r := full[..if |full| < MaxHistory then |full| else MaxHistory];
    MergeShape(history, word, kept, full, r);
    r
  }

  /** The facts about one merge step, proved apart from its definition. */
  lemma MergeShape(history: seq<SearchHistoryItem>, word: string, kept: seq<SearchHistoryItem>,
                   full: seq<SearchHistoryItem>, r: seq<SearchHistoryItem>)
    requires kept == Filter(history, DifferentWord(word))
    requires |full| == |kept| + 1 && full[1..] == kept
    requires r == full[..if |full| < MaxHistory then |full| else MaxHistory]
    ensures forall i :: 1 <= i < |r| ==> Key(r[i]) != Lower(word)
    ensures IsSubseq(r[1..], history)
    ensures |history| < MaxHistory ==>
              forall x :: x in history && Key(x) != Lower(word) ==> x in r
    ensures (exists x :: x in history && Key(x) == Lower(word)) ==> |r| <= |history|
  {
    MergeOrder(history, kept, full, r);
    MergeRemoves(history, word, kept, full, r);
    MergeKeeps(history, word, kept, full, r);
    DuplicateShortens(history, word);
  }

  lemma MergeOrder(history: seq<SearchHistoryItem>, kept: seq<SearchHistoryItem>,
                   full: seq<SearchHistoryItem>, r: seq<SearchHistoryItem>)
    requires IsSubseq(kept, history)
    requires |full| == |kept| + 1 && full[1..] == kept
    requires 1 <= |r| <= |full| && r == full[..|r|]
    ensures IsSubseq(r[1..], history)
    ensures r[1..] == kept[..|r| - 1]
  {
    assert r[1..] == kept[..|r| - 1];
    PrefixIsSubseq(kept, |r| - 1);
    SubseqTransitive(r[1..], kept, history);
  }

  lemma MergeRemoves(history: seq<SearchHistoryItem>, word: string, kept: seq<SearchHistoryItem>,
                     full: seq<SearchHistoryItem>, r: seq<SearchHistoryItem>)
    requires kept == Filter(history, DifferentWord(word))
    requires |full| == |kept| + 1 && full[1..] == kept
    requires 1 <= |r| <= |full| && r == full[..|r|]
    ensures forall i :: 1 <= i < |r| ==> Key(r[i]) != Lower(word)
  {
    forall i | 1 <= i < |r|
      ensures Key(r[i]) != Lower(word)
    {
      assert r[i] == kept[i - 1];
      assert r[i] in kept;
    }
  }

  lemma MergeKeeps(history: seq<SearchHistoryItem>, word: string, kept: seq<SearchHistoryItem>,
                   full: seq<SearchHistoryItem>, r: seq<SearchHistoryItem>)
    requires kept == Filter(history, DifferentWord(word))
    requires |full| == |kept| + 1 && full[1..] == kept
    requires r == full[..if |full| < MaxHistory then |full| else MaxHistory]
    ensures |history| < MaxHistory ==>
              forall x :: x in history && Key(x) != Lower(word) ==> x in r
  {
    if |history| < MaxHistory {
      assert r == full;
      forall x | x in history && Key(x) != Lower(word)
        ensures x in r
      {
        assert DifferentWord(word)(x);
        assert x in full[1..];
      }
    }
  }

  /** Filtering out a word that is present makes the history shorter. */
  lemma DuplicateShortens(history: seq<SearchHistoryItem>, word: string)
    ensures (exists x :: x in history && Key(x) == Lower(word)) ==>
              |Filter(history, DifferentWord(word))| < |history|
  {
    if exists x :: x in history && Key(x) == Lower(word) {
      var x :| x in history && Key(x) == Lower(word);
      FilterDrops(history, DifferentWord(word), x);
    }
  }

  /** A successful lookup keeps the history well formed. */
  lemma MergeWellFormed(history: seq<SearchHistoryItem>, word: string, now: int)
    requires WellFormed(history)
    ensures WellFormed(Merge(history, word, now))
  {
    var r := Merge(history, word, now);
    SubseqDistinct(r[1..], history, Key);
    forall i, j | 0 <= i < j < |r|
      ensures Key(r[i]) != Key(r[j])
    {
      if i > 0 {
        assert r[1..][i - 1] == r[i] && r[1..][j - 1] == r[j];
      }
    }
  }

  /** Looking up a word already in a well-formed history moves it to the
      front without lengthening the history. */
  lemma RepeatLookupMovesToFront(history: seq<SearchHistoryItem>, i: nat, word: string, now: int)
    requires WellFormed(history)
    requires i < |history| && Key(history[i]) == Lower(word)
    ensures var r := Merge(history, word, now);
            |r| == |history| && r[0].word == word
  {
    forall j | 0 <= j < |history| && j != i
      ensures DifferentWord(word)(history[j])
    {
      if j < i {
        assert Key(history[j]) != Key(history[i]);
      } else {
        assert Key(history[i]) != Key(history[j]);
      }
    }
    FilterDropsOne(history, DifferentWord(word), i);
  }
}

=== FILE: history_view.dfy ===
/** The history screen: a case-insensitive substring filter over the stored
    lookups, and the choice between the empty-history message, the
    no-matches message and the list of matching lookups. */
module HistoryView {
  import opened Types
  import opened Text
  import opened Seqs

  /** The filter callback for an already lower-cased term. */
  function ContainsLowered(loweredTerm: string): SearchHistoryItem -> bool {
    (item: SearchHistoryItem) => Includes(Lower(item.word), loweredTerm)
  }

  /** `filteredHistory`: the lookups whose lower-cased word contains the
      lower-cased search term, in history order. */
  function FilterHistory(history: seq<SearchHistoryItem>, term: string): (r: seq<SearchHistoryItem>)
    ensures IsSubseq(r, history)
    ensures forall x :: x in r <==> x in history && exists i :: OccursAt(Lower(x.word), Lower(term), i)
    ensures forall x :: multiset(r)[x] ==
              if exists i :: OccursAt(Lower(x.word), Lower(term), i) then multiset(history)[x] else 0
  {
    MatchIsSubstring(term);
    FilterCounts(history, ContainsLowered(Lower(term)));
    Filter(history, ContainsLowered(Lower(term)))
  }

  lemma MatchIsSubstring(term: string)
    ensures forall x :: ContainsLowered(Lower(term))(x) <==> exists i :: OccursAt(Lower(x.word), Lower(term), i)
  {
    forall x
      ensures ContainsLowered(Lower(term))(x) <==> exists i :: OccursAt(Lower(x.word), Lower(term), i)
    {
      IncludesIffOccurs(Lower(x.word), Lower(term));
    }
  }

  /** An empty filter box shows the whole history. */
  lemma EmptyTermKeepsAll(history: seq<SearchHistoryItem>)
    ensures FilterHistory(history, "") == history
  {
    forall x | x in history
      ensures ContainsLowered(Lower(""))(x)
    {
      IncludesEmpty(Lower(x.word));
    }
    FilterKeepsAll(history, ContainsLowered(Lower("")));
  }

  /** The filter only sees the lower-cased term: terms that differ only in
      the case of ASCII letters select the same lookups. */
  lemma FilterIgnoresCase(history: seq<SearchHistoryItem>, t1: string, t2: string)
    requires Lower(t1) == Lower(t2)
    ensures FilterHistory(history, t1) == FilterHistory(history, t2)
    ensures FilterHistory(history, Lower(t1)) == FilterHistory(history, t1)
  {
    LowerIdempotent(t1);
  }

  /** Typing a stored word, in any case, finds that lookup again. */
  lemma OwnWordIsFound(history: seq<SearchHistoryItem>, item: SearchHistoryItem, term: string)
    requires item in history
    requires Lower(term) == Lower(item.word)
    ensures item in FilterHistory(history, term)
  {
    assert OccursAt(Lower(item.word), Lower(term), 0);
  }

  /** What the body of the screen shows. */
  datatype Panel =
    | EmptyHistory
    | NoMatches(term: string)
    | Results(items: seq<SearchHistoryItem>)

  /** The rendered screen: whether the filter box is shown, and the panel. */
  datatype Screen = Screen(filterShown: bool, panel: Panel)

  function ShowHistory(history: seq<SearchHistoryItem>, term: string): (s: Screen)
    ensures s.filterShown <==> history != []
    ensures s.panel.EmptyHistory? <==> history == []
    ensures s.panel.NoMatches? <==>
              history != [] && forall x, i :: x in history ==> !OccursAt(Lower(x.word), Lower(term), i)
    ensures s.panel.NoMatches? ==> s.panel.term == term
    ensures s.panel.Results? ==> s.panel.items == FilterHistory(history, term) && s.panel.items != []
  {
    var filtered := FilterHistory(history, term);
    var panel :=
      if |history| == 0 then EmptyHistory
      else if |filtered| == 0 then NoMatches(term)
      else Results(filtered);
    assert filtered != [] ==> filtered[0] in filtered;
    Screen(|history| > 0, panel)
  }

  /** With the filter box empty, a non-empty history is always listed in full. */
  lemma EmptyTermNeverNoMatches(history: seq<SearchHistoryItem>)
    requires history != []
    ensures ShowHistory(history, "").panel == Results(history)
  {
    EmptyTermKeepsAll(history);
  }
}

=== FILE: lookup_service.dfy ===
/** The adapter in front of the generative model. The model itself, and
    `JSON.parse`, are parameters: the model as a function from request to
    the response text it answers with (absent text is `None`, a thrown
    error is `Failure`), the parser as a function that fails with `None`. */
module LookupService {
  import opened Wrappers
  import opened Types
  import opened Text

  /** Something the remote call threw. */
  datatype ServiceError = ServiceError

  /** Why `fetchWordDetails` rejected. */
  datatype LookupError =
    | RequestFailed    // the model call threw
    | NoResponse       // the response text was absent or empty
    | Unparsable       // `JSON.parse` threw on the text

  /** Whether a character lies in U+4E00..U+9FA5, the range the adapter
      treats as Chinese (a part of the CJK Unified Ideographs block). */
  predicate IsCjk(c: char) {
    '\U{4E00}' <= c <= '\U{9FA5}'
  }

  /** Whether some character of `word` is in that range. Code
      points outside the Basic Multilingual Plane are surrogate pairs in
      JavaScript, whose halves lie outside the range, so testing whole
      characters gives the same answer. */
  function IsChinese(word: string): (r: bool)
    ensures r <==> exists i :: 0 <= i < |word| && IsCjk(word[i])
  {
    if word == [] then false
    else IsCjk(word[0]) || (assert forall i :: 0 < i < |word| ==> word[i] == word[1..][i - 1]; IsChinese(word[1..]))
  }

  /** Which of the two instructions is sent; both carry the user's input. */
  datatype PromptKind = Translate | Lexicographer

  datatype Prompt = Prompt(kind: PromptKind, word: string)

  /** A Chinese input is sent with the translation instruction, anything
      else with the monolingual lexicographer instruction. */
  function PromptFor(word: string): (p: Prompt)
    ensures p.word == word
    ensures p.kind == Translate <==> exists i :: 0 <= i < |word| && IsCjk(word[i])
  {
    Prompt(if IsChinese(word) then Translate else Lexicographer, word)
  }

  /** `fetchWordDetails`: the entry the model describes for `word`. An absent
      or empty text is an error; a parse failure propagates, since nothing
      catches it. */
  function FetchWordDetails(word: string, model: Prompt -> Result<Option<string>, ServiceError>,
                            parse: string -> Option<DictionaryEntry>): (r: Result<DictionaryEntry, LookupError>)
    ensures model(PromptFor(word)).Failure? ==> r == Failure(RequestFailed)
    ensures r.Success? <==>
              && model(PromptFor(word)).Success?
              && model(PromptFor(word)).value.Some?
              && model(PromptFor(word)).value.value != []
              && parse(model(PromptFor(word)).value.value).Some?
    ensures r.Success? ==> Some(r.value) == parse(model(PromptFor(word)).value.value)
    ensures (model(PromptFor(word)) == Success(None) || model(PromptFor(word)) == Success(Some([])))
              ==> r == Failure(NoResponse)
  {
    match model(PromptFor(word))
    case Failure(_) => Failure(RequestFailed)
    case Success(text) =>
      if text.None? || text.value == [] then Failure(NoResponse)
      else
        match parse(text.value)
        case None => Failure(Unparsable)
        case Some(entry) => Success(entry)
  }

  /** Queries shorter than this, in UTF-16 code units, are answered with no
      suggestions. */
  const MinSuggestionQuery: nat := 2

  /** `fetchSuggestions`: a short query gets `[]` without consulting the
      model; otherwise a thrown call propagates, while an absent, empty or
      unparsable text gives `[]` (an empty text is parsed as `"[]"`). */
  function FetchSuggestions(query: string, model: string -> Result<Option<string>, ServiceError>,
                            parse: string -> Option<seq<string>>): (r: Result<seq<string>, ServiceError>)
    ensures JsLength(query) < MinSuggestionQuery ==> r == Success([])
    ensures JsLength(query) >= MinSuggestionQuery ==> (r.Failure? <==> model(query).Failure?)
    ensures JsLength(query) >= MinSuggestionQuery && model(query).Success? ==>
              match model(query).value
              case Some(text) =>
                && (text != [] && parse(text).Some? ==> r == Success(parse(text).value))
                && (text == [] || parse(text).None? ==> r == Success([]))
              case None => r == Success([])
    ensures r.Success? && r.value != [] ==>
              && JsLength(query) >= MinSuggestionQuery
              && model(query).Success? && model(query).value.Some?
              && parse(model(query).value.value) == Some(r.value)
  {
    if JsLength(query) < MinSuggestionQuery then Success([])
    else
      match model(query)
      case Failure(e) => Failure(e)
      case Success(text) =>
        if text.None? || text.value == [] then Success([])
        else
          match parse(text.value)
          case None => Success([])
          case Some(words) => Success(words)
  }

  /** The part of a speech-synthesis response the adapter reads: the inline
      payload of the first part of the content of the first candidate. */
  datatype InlineData = InlineData(data: Option<string>)
  datatype Part = Part(inlineData: Option<InlineData>)
  datatype Content = Content(parts: Option<seq<Part>>)
  datatype Candidate = Candidate(content: Option<Content>)
  datatype AudioResponse = AudioResponse(candidates: Option<seq<Candidate>>)

  /** Whether every link of the optional chain is present, the arrays
      non-empty and the payload set. */
  predicate HasAudio(resp: AudioResponse) {
    && resp.candidates.Some? && |resp.candidates.value| > 0
    && resp.candidates.value[0].content.Some?
    && resp.candidates.value[0].content.value.parts.Some?
    && |resp.candidates.value[0].content.value.parts.value| > 0
    && resp.candidates.value[0].content.value.parts.value[0].inlineData.Some?
    && resp.candidates.value[0].content.value.parts.value[0].inlineData.value.data.Some?
  }

  /** `fetchAudio` after the call returned: the payload, or absent as soon
      as one link of the chain is missing. */
  function ExtractAudio(resp: AudioResponse): (r: Option<string>)
    ensures r.Some? <==> HasAudio(resp)
    ensures r.Some? ==> r.value == resp.candidates.value[0].content.value.parts.value[0].inlineData.value.data.value
  {
    if resp.candidates.None? || |resp.candidates.value| == 0 then None
    else
      var cand := resp.candidates.value[0];
      if cand.content.None? || cand.content.value.parts.None? || |cand.content.value.parts.value| == 0 then None
      else
        var part := cand.content.value.parts.value[0];
        if part.inlineData.None? then None else part.inlineData.value.data
  }

  /** `fetchAudio`: a thrown call propagates to the caller. */
  function FetchAudio(text: string, model: string -> Result<AudioResponse, ServiceError>): (r: Result<Option<string>, ServiceError>)
    ensures r.Failure? <==> model(text).Failure?
    ensures r.Success? ==> (r.value.Some? <==> HasAudio(model(text).value))
    ensures r.Success? && r.value.Some? ==>
              r.value.value == model(text).value.candidates.value[0].content.value.parts.value[0].inlineData.value.data.value
  {
    match model(text)
    case Failure(e) => Failure(e)
    case Success(resp) => Success(ExtractAudio(resp))
  }
}

=== FILE: search_bar.dfy ===
/** The search box: the query, the suggestion list and the keyboard
    highlight `activeIndex` over it, driven one event at a time. */
module SearchBar {
  import opened Wrappers
  import opened Text
  import opened LookupService

  datatype BarState = BarState(query: string, suggestions: seq<string>, showSuggestions: bool, activeIndex: int)

  const Start := BarState("", [], false, -1)

  /** -1 means "no suggestion highlighted"; otherwise a suggestion is. */
  predicate IndexInRange(s: BarState) {
    -1 <= s.activeIndex < |s.suggestions|
  }

  /** Submitting while `activeIndex` points past the list reads `undefined`
      and calling `trim` on it throws. */
  datatype Fault = UndefinedSuggestion

  /** The state after an event, and the word handed to `onSearch`, if any. */
  datatype Outcome = Outcome(next: BarState, searched: Option<string>)

  datatype Key = ArrowDown | ArrowUp | Enter | Escape | OtherKey

  function Min(a: int, b: int): int { if a < b then a else b }
  function Max(a: int, b: int): int { if a < b then b else a }

  /** What a submit searches for: the highlighted suggestion, or the query
      when nothing is highlighted. */
  function Chosen(s: BarState): (r: string)
    requires s.activeIndex < |s.suggestions|
    ensures s.activeIndex < 0 ==> r == s.query
    ensures s.activeIndex >= 0 ==> r in s.suggestions
  {
    if s.activeIndex >= 0 then s.suggestions[s.activeIndex] else s.query
  }

  /** `handleSubmit`: search for the chosen text, trimmed, unless it is
      blank; a search hides the list and clears the highlight. */
  function Submit(s: BarState): (r: Result<Outcome, Fault>)
    ensures r.Failure? <==> s.activeIndex >= |s.suggestions|
    ensures r.Success? ==> (r.value.searched.Some? <==> Trim(Chosen(s)) != [])
    ensures r.Success? && r.value.searched.Some? ==>
              && r.value.searched.value == Trim(Chosen(s))
              && r.value.next == s.(showSuggestions := false, activeIndex := -1)
    ensures r.Success? && r.value.searched.None? ==> r.value.next == s
    ensures r.Success? && r.value.searched.Some? ==>
              r.value.searched.value == Trim(if s.activeIndex >= 0 then s.suggestions[s.activeIndex] else s.query)
  {
    if s.activeIndex >= |s.suggestions| then Failure(UndefinedSuggestion)
    else
      var word := Trim(Chosen(s));
      if word != [] then Success(Outcome(s.(showSuggestions := false, activeIndex := -1), Some(word)))
      else Success(Outcome(s, None))
  }

  /** A submit hands `onSearch` only non-blank, trimmed words, and leaves
      nothing highlighted afterwards. */
  lemma SubmittedWordIsTrimmed(s: BarState)
    requires Submit(s).Success? && Submit(s).value.searched.Some?
    ensures var w := Submit(s).value.searched.value; w != [] && IsTrimmed(w)
    ensures IndexInRange(Submit(s).value.next)
  {
  }

  /** `handleKeyDown`. */
  function KeyDown(s: BarState, key: Key): (r: Result<Outcome, Fault>)
    ensures key != Enter ==> r.Success? && r.value.searched.None?
    ensures key == ArrowDown ==> r.value.next.activeIndex <= |s.suggestions| - 1
    ensures key == ArrowDown && IndexInRange(s) && s.activeIndex + 1 < |s.suggestions| ==>
              r.value.next.activeIndex == s.activeIndex + 1
    ensures key == ArrowUp ==> r.value.next.activeIndex >= -1
    ensures key == ArrowUp && s.activeIndex >= 0 ==> r.value.next.activeIndex == s.activeIndex - 1
    ensures key == Enter ==> r == (if s.activeIndex >= 0 then Submit(s) else Success(Outcome(s, None)))
    ensures key == Escape ==> r.value.next == s.(showSuggestions := false)
    ensures key != Enter ==> r.value.next.query == s.query && r.value.next.suggestions == s.suggestions
    ensures key == ArrowDown ==>
              r == Success(Outcome(s.(activeIndex := Min(s.activeIndex + 1, |s.suggestions| - 1)), None))
    ensures key == ArrowUp ==> r == Success(Outcome(s.(activeIndex := Max(s.activeIndex - 1, -1)), None))
    ensures key == OtherKey ==> r == Success(Outcome(s, None))
  {
    match key
    case ArrowDown => Success(Outcome(s.(activeIndex := Min(s.activeIndex + 1, |s.suggestions| - 1)), None))
    case ArrowUp => Success(Outcome(s.(activeIndex := Max(s.activeIndex - 1, -1)), None))
    case Enter => if s.activeIndex >= 0 then Submit(s) else Success(Outcome(s, None))
    case Escape => Success(Outcome(s.(showSuggestions := false), None))
    case OtherKey => Success(Outcome(s, None))
  }

  /** The input's `onChange`: new text, nothing highlighted. */
  function Typed(s: BarState, text: string): (r: BarState)
    ensures r.query == text && r.activeIndex == -1
    ensures r.suggestions == s.suggestions && r.showSuggestions == s.showSuggestions
    ensures IndexInRange(r)
  {
    s.(query := text, activeIndex := -1)
  }

  /** The input's `onFocus`: reopen the list once the query has two UTF-16
      code units. */
  function Focused(s: BarState): (r: BarState)
    ensures r.showSuggestions <==> s.showSuggestions || JsLength(s.query) >= 2
    ensures r == s.(showSuggestions := r.showSuggestions)
  {
    if JsLength(s.query) >= 2 then s.(showSuggestions := true) else s
  }

  /** A click on suggestion `index`: it becomes the query and is searched as
      it is, untrimmed; the highlight is left where it was. Only existing
      suggestions have a button, so any other index changes nothing. */
  function Picked(s: BarState, index: int): (r: Outcome)
    ensures 0 <= index < |s.suggestions| ==>
              r == Outcome(s.(query := s.suggestions[index], showSuggestions := false), Some(s.suggestions[index]))
    ensures !(0 <= index < |s.suggestions|) ==> r == Outcome(s, None)
    ensures IndexInRange(s) ==> IndexInRange(r.next)
  {
    if 0 <= index < |s.suggestions| then
      Outcome(s.(query := s.suggestions[index], showSuggestions := false), Some(s.suggestions[index]))
    else Outcome(s, None)
  }

  /** The clear button as written: it empties the query and the list but
      keeps the highlight. */
  function ClearAsWritten(s: BarState): (r: BarState)
    ensures r.query == [] && r.suggestions == []
    ensures r.activeIndex == s.activeIndex && r.showSuggestions == s.showSuggestions
    ensures IndexInRange(r) <==> s.activeIndex == -1
  {
    s.(query := "", suggestions := [])
  }

  /** Clearing while a suggestion is highlighted leaves the highlight on
      a suggestion that no longer exists, and Enter then fails. */
  lemma ClearThenEnterFails()
    ensures var s := BarState("ru", ["run", "rush"], true, 0);
            && IndexInRange(s)
            && !IndexInRange(ClearAsWritten(s))
            && KeyDown(ClearAsWritten(s), Enter) == Failure(UndefinedSuggestion)
  {
  }

  /** The clear button with the highlight reset too. */
  function Clear(s: BarState): (r: BarState)
    ensures r.query == [] && r.suggestions == [] && r.activeIndex == -1
    ensures r.showSuggestions == s.showSuggestions
    ensures IndexInRange(r)
  {
    s.(query := "", suggestions := [], activeIndex := -1)
  }

  /** The debounced effect after the query changes, as written: fetch
      suggestions for a trimmed query of at least two code units when no
      lookup is running, otherwise empty and hide the list. The highlight is
      left alone. A failed fetch leaves everything as it was. */
  function DebounceFiredAsWritten(s: BarState, isLoading: bool,
                                  model: string -> Result<Option<string>, ServiceError>,
                                  parse: string -> Option<seq<string>>): (r: BarState)
    ensures r.query == s.query && r.activeIndex == s.activeIndex
    ensures !(JsLength(Trim(s.query)) >= 2 && !isLoading) ==> r.suggestions == [] && !r.showSuggestions
    ensures JsLength(Trim(s.query)) >= 2 && !isLoading ==>
              match FetchSuggestions(s.query, model, parse)
              case Success(words) => r.suggestions == words && r.showSuggestions
              case Failure(_) => r == s
  {
    if JsLength(Trim(s.query)) >= 2 && !isLoading then
      match FetchSuggestions(s.query, model, parse)
      case Success(words) => s.(suggestions := words, showSuggestions := true)
      case Failure(_) => s
    else s.(suggestions := [], showSuggestions := false)
  }

  /** Highlighting the third suggestion and then clicking it starts a
      lookup; the debounced effect for the new query then empties the list
      while the highlight stays, and the next submit fails. */
  lemma PickThenSubmitFails(model: string -> Result<Option<string>, ServiceError>,
                            parse: string -> Option<seq<string>>)
    ensures var s := BarState("ru", ["run", "rush", "rule"], true, 2);
            var picked := Picked(s, 2);
            var settled := DebounceFiredAsWritten(picked.next, true, model, parse);
            && IndexInRange(s)
            && picked.searched == Some("rule")
            && !IndexInRange(settled)
            && Submit(settled) == Failure(UndefinedSuggestion)
  {
  }

  /** The debounced effect with the highlight reset whenever the list is
      replaced. */
  function DebounceFired(s: BarState, isLoading: bool,
                         model: string -> Result<Option<string>, ServiceError>,
                         parse: string -> Option<seq<string>>): (r: BarState)
    ensures r.query == s.query
    ensures !(JsLength(Trim(s.query)) >= 2 && !isLoading) ==> r.suggestions == [] && !r.showSuggestions
    ensures JsLength(Trim(s.query)) >= 2 && !isLoading ==>
              match FetchSuggestions(s.query, model, parse)
              case Success(words) => r.suggestions == words && r.showSuggestions
              case Failure(_) => r == s
    ensures r != s ==> r.activeIndex == -1
    ensures IndexInRange(s) ==> IndexInRange(r)
  {
    var settled := DebounceFiredAsWritten(s, isLoading, model, parse);
    if settled == s then s else settled.(activeIndex := -1)
  }

  /** The trimmed-length guard is at least as strict as the service's own
      length guard, so the service never answers a fired request with its
      short-query shortcut. */
  lemma DebounceQueryLongEnough(query: string)
    requires JsLength(Trim(query)) >= 2
    ensures JsLength(query) >= MinSuggestionQuery
  {
    TrimShortens(query);
  }

  /** Everything the search box reacts to. `FormSubmitted` is the form's
      `onSubmit` (the GO button). */
  datatype Event =
    | Typing(text: string)
    | KeyPressed(key: Key)
    | FormSubmitted
    | Focus
    | ClearPressed
    | SuggestionClicked(index: int)
    | Debounced(isLoading: bool)

  /** One event, with the corrected clear button and debounced effect. */
  function Handle(s: BarState, e: Event,
                  model: string -> Result<Option<string>, ServiceError>,
                  parse: string -> Option<seq<string>>): Result<Outcome, Fault>
  {
    match e
    case Typing(text) => Success(Outcome(Typed(s, text), None))
    case KeyPressed(key) => KeyDown(s, key)
    case FormSubmitted => Submit(s)
    case Focus => Success(Outcome(Focused(s), None))
    case ClearPressed => Success(Outcome(Clear(s), None))
    case SuggestionClicked(index) => Success(Picked(s, index))
    case Debounced(isLoading) => Success(Outcome(DebounceFired(s, isLoading, model, parse), None))
  }

  /** The highlight stays on an existing suggestion or on nothing, so no
      event ever reads past the list, and every search is for a non-blank word. */
  lemma HandleKeepsIndexInRange(s: BarState, e: Event,
                                model: string -> Result<Option<string>, ServiceError>,
                                parse: string -> Option<seq<string>>)
    requires IndexInRange(s)
    ensures Handle(s, e, model, parse).Success?
    ensures IndexInRange(Handle(s, e, model, parse).value.next)
  {
  }

  /** Over any run of events from a state whose highlight is in range, no
      event faults and the highlight stays in range. This rests on the
      suggestions being strings: the parser hands back a list of strings, as
      the response schema of the suggestion request asks the model for. */
  lemma {:induction false} RunNeverFaults(s: BarState, events: seq<Event>,
                                          model: string -> Result<Option<string>, ServiceError>,
                                          parse: string -> Option<seq<string>>)
    requires IndexInRange(s)
    ensures Run(s, events, model, parse).Success?
    ensures IndexInRange(Run(s, events, model, parse).value)
    decreases |events|
  {
    if events != [] {
      HandleKeepsIndexInRange(s, events[0], model, parse);
      RunNeverFaults(Handle(s, events[0], model, parse).value.next, events[1..], model, parse);
    }
  }

  /** The state after a run of events, or the first fault. */
  function Run(s: BarState, events: seq<Event>,
               model: string -> Result<Option<string>, ServiceError>,
               parse: string -> Option<seq<string>>): Result<BarState, Fault>
    decreases |events|
  {
    if events == [] then Success(s)
    else
      match Handle(s, events[0], model, parse)
      case Failure(f) => Failure(f)
      case Success(o) => Run(o.next, events[1..], model, parse)
  }

  /** In particular, no run of events from the freshly mounted search box
      faults. */
  lemma StartRunNeverFaults(events: seq<Event>,
                            model: string -> Result<Option<string>, ServiceError>,
                            parse: string -> Option<seq<string>>)
    ensures Run(Start, events, model, parse).Success?
    ensures IndexInRange(Run(Start, events, model, parse).value)
  {
    RunNeverFaults(Start, events, model, parse);
  }
}

=== FILE: seqs.dfy ===
/** `Array.prototype.filter` and the subsequence relation it establishes. */
module Seqs {

  /** `a` can be obtained from `b` by deleting elements, keeping order. */
  predicate IsSubseq<T(==)>(a: seq<T>, b: seq<T>)
    decreases |b|
  {
    || a == []
    || (|b| > 0 && ((a[0] == b[0] && IsSubseq(a[1..], b[1..])) || IsSubseq(a, b[1..])))
  }

  /** `s.filter(p)`: the elements satisfying `p`, in their original order. */
  function Filter<T(==,!new)>(s: seq<T>, p: T -> bool): (r: seq<T>)
    ensures |r| <= |s|
    ensures IsSubseq(r, s)
    ensures forall x :: x in r <==> x in s && p(x)
  {
    if s == [] then []
    else
      assert s == [s[0]] + s[1..];
      if p(s[0]) then [s[0]] + Filter(s[1..], p) else Filter(s[1..], p)
  }

  /** The filter keeps every element satisfying `p` as often as it occurs,
      and no other element. */
  lemma {:induction false} FilterCounts<T(!new)>(s: seq<T>, p: T -> bool)
    ensures forall x :: multiset(Filter(s, p))[x] == if p(x) then multiset(s)[x] else 0
  {
    if s != [] {
      FilterCounts(s[1..], p);
      assert s == [s[0]] + s[1..];
    }
  }

  /** Filtering after appending one element, as a left fold sees it. */
  lemma {:induction false} FilterAppend<T(!new)>(s: seq<T>, x: T, p: T -> bool)
    ensures Filter(s + [x], p) == Filter(s, p) + (if p(x) then [x] else [])
  {
    if s != [] {
      var t := s + [x];
      assert t[0] == s[0] && t[1..] == s[1..] + [x];
      FilterAppend(s[1..], x, p);
    }
  }

  /** A filter that keeps every element is the identity. */
  lemma {:induction false} FilterKeepsAll<T(!new)>(s: seq<T>, p: T -> bool)
    requires forall x :: x in s ==> p(x)
    ensures Filter(s, p) == s
  {
    if s != [] {
      FilterKeepsAll(s[1..], p);
    }
  }

  /** A filter that rejects every element gives nothing. */
  lemma {:induction false} FilterKeepsNone<T(!new)>(s: seq<T>, p: T -> bool)
    requires forall i :: 0 <= i < |s| ==> !p(s[i])
    ensures Filter(s, p) == []
  {
    if s != [] {
      FilterKeepsNone(s[1..], p);
    }
  }

  /** A filter that rejects exactly one position drops exactly one element. */
  lemma {:induction false} FilterDropsOne<T(!new)>(s: seq<T>, p: T -> bool, i: nat)
    requires i < |s| && !p(s[i])
    requires forall j :: 0 <= j < |s| && j != i ==> p(s[j])
    ensures |Filter(s, p)| == |s| - 1
  {
    if i == 0 {
      forall x | x in s[1..]
        ensures p(x)
      {
        var j :| 0 <= j < |s[1..]| && s[1..][j] == x;
        assert s[j + 1] == x;
      }
      FilterKeepsAll(s[1..], p);
    } else {
      assert p(s[0]);
      FilterDropsOne(s[1..], p, i - 1);
    }
  }

  /** A filter that rejects some element makes the sequence shorter. */
  lemma {:induction false} FilterDrops<T(!new)>(s: seq<T>, p: T -> bool, x: T)
    requires x in s && !p(x)
    ensures |Filter(s, p)| < |s|
  {
    if s[0] != x {
      FilterDrops(s[1..], p, x);
    }
  }

  lemma {:induction false} SubseqMembers<T>(a: seq<T>, b: seq<T>)
    requires IsSubseq(a, b)
    ensures forall x :: x in a ==> x in b
    decreases |b|
  {
    if a != [] {
      if a[0] == b[0] && IsSubseq(a[1..], b[1..]) {
        SubseqMembers(a[1..], b[1..]);
        assert forall x :: x in a ==> x == a[0] || x in a[1..];
      } else {
        SubseqMembers(a, b[1..]);
      }
    }
  }

  lemma {:induction false} SubseqTransitive<T>(a: seq<T>, b: seq<T>, c: seq<T>)
    requires IsSubseq(a, b) && IsSubseq(b, c)
    ensures IsSubseq(a, c)
    decreases |c|
  {
    if a != [] {
      if b[0] == c[0] && IsSubseq(b[1..], c[1..]) {
        if a[0] == b[0] && IsSubseq(a[1..], b[1..]) {
          SubseqTransitive(a[1..], b[1..], c[1..]);
        } else {
          SubseqTransitive(a, b[1..], c[1..]);
        }
      } else {
        SubseqTransitive(a, b, c[1..]);
      }
    }
  }

  lemma {:induction false} PrefixIsSubseq<T>(s: seq<T>, n: nat)
    requires n <= |s|
    ensures IsSubseq(s[..n], s)
  {
    if n > 0 {
      assert s[..n][1..] == s[1..][..n - 1];
      PrefixIsSubseq(s[1..], n - 1);
    }
  }

  /** No two elements share a key. */
  predicate DistinctBy<T, K(==)>(s: seq<T>, key: T -> K) {
    forall i, j :: 0 <= i < j < |s| ==> key(s[i]) != key(s[j])
  }

  /** Deleting elements keeps keys distinct. */
  lemma {:induction false} SubseqDistinct<T, K>(a: seq<T>, b: seq<T>, key: T -> K)
    requires IsSubseq(a, b) && DistinctBy(b, key)
    ensures DistinctBy(a, key)
    decreases |b|
  {
    if a != [] {
      assert DistinctBy(b[1..], key);
      if a[0] == b[0] && IsSubseq(a[1..], b[1..]) {
        SubseqDistinct(a[1..], b[1..], key);
        SubseqMembers(a[1..], b[1..]);
        forall j | 0 < j < |a|
          ensures key(a[0]) != key(a[j])
        {
          assert a[j] in a[1..];
          var k :| 0 <= k < |b[1..]| && b[1..][k] == a[j];
          assert b[k + 1] == a[j];
        }
      } else {
        SubseqDistinct(a, b[1..], key);
      }
    }
  }
}

=== FILE: text.dfy ===
/** String primitives of JavaScript that the application relies on:
    the `\s` character class and `trim`, `toLowerCase` and `includes`. */
module Text {

  /** The characters matched by `\s` in an ECMAScript regular expression,
      which are also exactly the characters `String.prototype.trim` removes:
      the WhiteSpace and LineTerminator productions of ECMAScript. */
  predicate IsSpace(c: char) {
    || c == ' ' || c == '\t' || c == '\n' || c == '\r'
    || c == '\U{000B}' || c == '\U{000C}' || c == '\U{00A0}' || c == '\U{1680}'
    || ('\U{2000}' <= c <= '\U{200A}')
    || c == '\U{2028}' || c == '\U{2029}' || c == '\U{202F}' || c == '\U{205F}'
    || c == '\U{3000}' || c == '\U{FEFF}'
  }

  predicate AllSpace(s: string) {
    forall i :: 0 <= i < |s| ==> IsSpace(s[i])
  }

  predicate NoSpace(s: string) {
    forall i :: 0 <= i < |s| ==> !IsSpace(s[i])
  }

  /** A string that `trim` leaves alone. */
  predicate IsTrimmed(s: string) {
    s == [] || (!IsSpace(s[0]) && !IsSpace(s[|s| - 1]))
  }

  /** `toLowerCase`, restricted to the ASCII letters. */
  function LowerChar(c: char): char {
    if 'A' <= c <= 'Z' then (c as int + 32) as char else c
  }

  function Lower(s: string): string {
    seq(|s|, i requires 0 <= i < |s| => LowerChar(s[i]))
  }

  lemma LowerIdempotent(s: string)
    ensures Lower(Lower(s)) == Lower(s)
  {
  }

  /** `trimStart`: drops the leading white space and nothing else. */
  function TrimStart(s: string): (r: string)
    ensures |r| <= |s| && r == s[|s| - |r|..]
    ensures AllSpace(s[..|s| - |r|])
    ensures r == [] || !IsSpace(r[0])
    decreases |s|
  {
    if |s| > 0 && IsSpace(s[0]) then TrimStart(s[1..]) else s
  }

  /** `trimEnd`: drops the trailing white space and nothing else. */
  function TrimEnd(s: string): (r: string)
    ensures |r| <= |s| && r == s[..|r|]
    ensures AllSpace(s[|r|..])
    ensures r == [] || !IsSpace(r[|r| - 1])
    decreases |s|
  {
    if |s| > 0 && IsSpace(s[|s| - 1]) then TrimEnd(s[..|s| - 1]) else s
  }

  /** `trim`: the longest infix of `s` that neither starts nor ends with
      white space, obtained by removing only white space. */
  function Trim(s: string): (r: string)
    ensures |r| <= |s|
    ensures IsTrimmed(r)
    ensures IsTrimmed(s) ==> r == s
  {
    var t := TrimStart(s);
    var r := TrimEnd(t);
    TrimInfix(s, t, r);
    r
  }

  /** `trim` keeps every character that is not white space and adds none. */
  lemma TrimKeepsCharacters(s: string)
    ensures forall c :: c in Trim(s) ==> c in s
    ensures forall c :: c in s && !IsSpace(c) ==> c in Trim(s)
  {
    var t := TrimStart(s);
    TrimInfix(s, t, TrimEnd(t));
    InfixChars(s, |s| - |t|, Trim(s));
  }

  /** Trimming the start and then the end leaves an infix between two runs
      of white space. */
  lemma TrimInfix(s: string, t: string, r: string)
    requires |t| <= |s| && t == s[|s| - |t|..] && AllSpace(s[..|s| - |t|])
    requires t == [] || !IsSpace(t[0])
    requires |r| <= |t| && r == t[..|r|] && AllSpace(t[|r|..])
    requires r == [] || !IsSpace(r[|r| - 1])
    ensures var a := |s| - |t|;
            r == s[a..][..|r|] && AllSpace(s[..a]) && AllSpace(s[a..][|r|..])
    ensures IsTrimmed(r)
    ensures IsTrimmed(s) ==> r == s
  {
    var a := |s| - |t|;
    assert s[a..] == t;
  }

  /** An infix between two runs of white space holds every character that
      is not white space, and nothing else. */
  lemma InfixChars(s: string, a: nat, r: string)
    requires a <= |s| - |r| && r == s[a..][..|r|] && AllSpace(s[..a]) && AllSpace(s[a..][|r|..])
    ensures forall c :: c in r ==> c in s
    ensures forall c :: c in s && !IsSpace(c) ==> c in r
  {
    forall c | c in r
      ensures c in s
    {
      var i :| 0 <= i < |r| && r[i] == c;
      assert s[a + i] == c;
    }
    forall c | c in s && !IsSpace(c)
      ensures c in r
    {
      var j :| 0 <= j < |s| && s[j] == c;
      if a <= j < a + |r| {
        assert r[j - a] == c;
      }
    }
  }

  /** `r` is an infix of `s` with only white space before and after it. */
  predicate SpaceBounded(r: string, s: string) {
    exists a :: 0 <= a <= |s| - |r| && r == s[a..][..|r|] && AllSpace(s[..a]) && AllSpace(s[a..][|r|..])
  }

  /** `trim` removes white space at the two ends and nothing else. */
  lemma TrimIsInfix(s: string)
    ensures SpaceBounded(Trim(s), s)
  {
    var t := TrimStart(s);
    var r := TrimEnd(t);
    TrimInfix(s, t, r);
    var a := |s| - |t|;
    assert r == Trim(s);
    assert 0 <= a <= |s| - |r| && r == s[a..][..|r|] && AllSpace(s[..a]) && AllSpace(s[a..][|r|..]);
  }

  lemma TrimIdempotent(s: string)
    ensures Trim(Trim(s)) == Trim(s)
  {
  }

  /** `length` of a JavaScript string: the number of UTF-16 code units, two
      for a character outside the Basic Multilingual Plane, one otherwise. */
  function JsLength(s: string): (n: nat)
    ensures |s| <= n <= 2 * |s|
    decreases |s|
  {
    if s == [] then 0
    else (if s[0] >= '\U{10000}' then 2 else 1) + JsLength(s[1..])
  }

  /** `length` adds up over the two sides of any cut. */
  lemma {:induction false} JsLengthSplit(s: string, k: nat)
    requires k <= |s|
    ensures JsLength(s) == JsLength(s[..k]) + JsLength(s[k..])
    decreases k
  {
    if k > 0 {
      assert s[..k][0] == s[0];
      assert s[..k][1..] == s[1..][..k - 1];
      assert s[1..][k - 1..] == s[k..];
      JsLengthSplit(s[1..], k - 1);
    } else {
      assert s[k..] == s;
    }
  }

  /** Inside the Basic Multilingual Plane `length` counts characters. */
  lemma {:induction false} JsLengthOfBmp(s: string)
    requires forall i :: 0 <= i < |s| ==> s[i] < '\U{10000}'
    ensures JsLength(s) == |s|
    decreases |s|
  {
    if s != [] {
      assert forall i :: 0 <= i < |s[1..]| ==> s[1..][i] == s[i + 1];
      JsLengthOfBmp(s[1..]);
    }
  }

  /** A single character has length one inside the Basic Multilingual Plane
      and two beyond it, where JavaScript stores it as a surrogate pair. */
  lemma JsLengthOfChar()
    ensures forall c :: c < '\U{10000}' ==> JsLength([c]) == 1
    ensures forall c :: c >= '\U{10000}' ==> JsLength([c]) == 2
  {
  }

  /** Trimming never lengthens a string, counted in code units. */
  lemma TrimShortens(s: string)
    ensures JsLength(Trim(s)) <= JsLength(s)
  {
    var t := TrimStart(s);
    var r := TrimEnd(t);
    JsLengthSplit(s, |s| - |t|);
    JsLengthSplit(t, |r|);
  }

  /** Whether `t` occurs in `s` starting at position `i`. */
  predicate OccursAt(s: string, t: string, i: int) {
    0 <= i && i + |t| <= |s| && s[i..i + |t|] == t
  }

  /** `s.includes(t)`, computed by trying each starting position in turn. */
  predicate Includes(s: string, t: string)
    decreases |s|
  {
    (|t| <= |s| && s[..|t|] == t) || (|s| > 0 && Includes(s[1..], t))
  }

  /** `Includes` is the substring relation. */
  lemma {:induction false} IncludesIffOccurs(s: string, t: string)
    ensures Includes(s, t) <==> exists i :: OccursAt(s, t, i)
    decreases |s|
  {
    if |t| <= |s| && s[..|t|] == t {
      assert OccursAt(s, t, 0);
    } else if |s| > 0 {
      IncludesIffOccurs(s[1..], t);
      if Includes(s[1..], t) {
        var i :| OccursAt(s[1..], t, i);
        TailSlice(s, i, |t|);
        assert OccursAt(s, t, i + 1);
      }
      if exists i :: OccursAt(s, t, i) {
        var i :| OccursAt(s, t, i);
        assert i != 0;
        TailSlice(s, i - 1, |t|);
        assert OccursAt(s[1..], t, i - 1);
      }
    }
  }

  /** A slice of the tail is the slice one position further on. */
  lemma TailSlice(s: string, i: nat, n: nat)
    requires 0 < |s| && i + n <= |s| - 1
    ensures s[1..][i..i + n] == s[i + 1..i + 1 + n]
  {
  }

  /** Every string includes the empty string. */
  lemma IncludesEmpty(s: string)
    ensures Includes(s, [])
  {
  }
}

=== FILE: types.dfy ===
/** The shapes of the data the application handles. Required properties are
    plain fields; optional properties (`?` in the interface) are `Option`s. */
module Types {
  import opened Wrappers

  datatype WordDefinition = WordDefinition(
    pos: string,
    pattern: Option<string>,
    meaning: string,
    examples: seq<string>,
    collocations: Option<seq<string>>)

  datatype PhrasalVerb = PhrasalVerb(phrase: string, meaning: string, examples: seq<string>)

  /** Spoken and written frequency bands, such as `S1` or `W3`. */
  datatype Frequency = Frequency(spoken: Option<string>, written: Option<string>)

  datatype Translation = Translation(sourceText: string, translatedText: string, isSentence: Option<bool>)

  datatype DictionaryEntry = DictionaryEntry(
    word: string,
    ipa: string,
    definitions: seq<WordDefinition>,
    phrasalVerbs: Option<seq<PhrasalVerb>>,
    synonyms: seq<string>,
    antonyms: seq<string>,
    derivatives: Option<seq<string>>,
    origin: Option<string>,
    usageNote: Option<string>,
    frequency: Option<Frequency>,
    translation: Option<Translation>)

  /** One remembered lookup; `timestamp` is milliseconds since the epoch. */
  datatype SearchHistoryItem = SearchHistoryItem(word: string, timestamp: int)
}

=== FILE: wrappers.dfy ===
/** Failure-carrying values used wherever the application awaits something
    that may be missing or may throw. */
module Wrappers {

  /** A value that may be absent: JavaScript's `undefined`/`null` or an
      optional property. */
  datatype Option<+T> = None | Some(value: T)

  /** The outcome of a call that either produces a value or throws. */
  datatype Result<+T, +E> = Success(value: T) | Failure(error: E)
}
